=== FILE: README.md ===
# django-hlsfield: keys, HLS planning and triggers, in Dafny

This project models the deterministic core of `django-hlsfield`. It covers
the Django model fields that store an uploaded video, derive metadata and a
preview image, and build an HLS ladder for it:

- **Artifact keys** (`ArtifactKeys`, `PosixPath`). A storage name is cut to a
  base key with POSIX `os.path.splitext`. The sidecar keys (meta JSON,
  preview JPEG) are derived from it in the `flat` or `nested` layout. The HLS
  output root is `base/subdir/`, and each file of the local output tree is
  uploaded under `root.rstrip('/') + "/" + rel`.
- **HLS planning** (`Probe`, `Hls`, `StableSort`). The first video and the
  first audio stream are picked. One variant is computed per ladder rung, with
  its bandwidth, even approximate width, and `v{h}/index.m3u8` naming. The
  master playlist is a fixed header followed by stream-info/URI pairs, sorted
  ascending by height with a stable sort. The encoder is an oracle that
  succeeds or fails for each rung, and the first failure aborts the
  operation.
- **The video field** (`Fields`). This covers:
  - the configuration defaults through Python's `or`;
  - the choice between model attributes and a JSON sidecar, in both `save`
    and `metadata()`;
  - the `preview_url()` preference order;
  - `master_url()`.
- **Deferred triggers** (`Deferral`). An upload on a record without a primary
  key sets a per-field pending flag. The `post_save` handler clears the flag
  and triggers the HLS build once. A record that has a key triggers at once.
- **The build task** (`Tasks`). It transcodes, uploads the tree under the
  output root, computes the master key, and writes back the playlist
  attribute with the right `update_fields`.

The environment is passed in as parameters:

- the probe result is `Option<ProbeInfo>`, where `None` means the prober
  raised;
- the encoder is `encoderOk: nat -> bool`, indexed by rung position;
- preview extraction success is a `bool`;
- `timezone.now()` is a `Value`;
- `storage.url` is a function;
- `storage.exists` is the set of existing keys;
- the `os.walk` listing of the output tree is a sequence of relative paths;
- the package defaults are a `Defaults` value, because the settings module is
  not part of this model.

The master playlist carries no `CODECS` attribute (utils.py:102-106). A rung
whose encoder run fails raises out of the rung loop and aborts the whole build
(utils.py:59-100). The number of segments a rung produced is not checked.

## Model

| member | source | states |
|---|---|---|
| PosixPath.SplitExt | src/hlsfield/fields.py:22 | The two parts concatenate back to the path. The extension is non-empty exactly when the last `.` after the last `/` is preceded by a non-`.` character of the basename, and then it starts at that dot. |
| ArtifactKeys.BaseKey | src/hlsfield/fields.py:21-23 | The base key is a prefix of the name. It equals the name exactly when the name has no extension. Otherwise the name has its extension dot at the position just past the base. |
| ArtifactKeys.MetaKey | src/hlsfield/fields.py:29-33 | The meta key strictly extends the base key. The character after the base is `/` in the nested layout and `_` in any other. |
| ArtifactKeys.PreviewKey | src/hlsfield/fields.py:35-39 | The preview key strictly extends the base key. The character after the base is `/` in the nested layout and `_` in any other. |
| ArtifactKeys.OutputRoot | src/hlsfield/tasks.py:27-29 | The output root starts with `base + "/"` and ends in `/`. |
| ArtifactKeys.MasterKey | src/hlsfield/tasks.py:53 | The recorded master key lies under `base + "/"` and ends in `/master.m3u8`; `MasterKeyMatchesUpload` shows it is the key the root playlist is uploaded under. |
| ArtifactKeys.SidecarDirKey | src/hlsfield/fields.py:25-27 | The nested-sidecar directory is a prefix of the name, equal to it exactly when the name has no extension. |
| ArtifactKeys.TreeKey | src/hlsfield/utils.py:116-117 | A tree key starts with the base path stripped of trailing slashes, then one `/`. What follows is the relative path with backslashes turned into `/`. |
| ArtifactKeys.SidecarsNeverSource | src/hlsfield/fields.py:21-39 | Neither sidecar key, in either layout, equals the source name. |
| ArtifactKeys.FlatSidecarsDistinct | src/hlsfield/fields.py:16-17 | In a non-nested layout the meta and preview keys differ. |
| ArtifactKeys.NestedSidecarsDistinct | src/hlsfield/fields.py:29-39 | In the nested layout the meta and preview keys are equal exactly when the two configured filenames are equal. |
| ArtifactKeys.LayoutsNeverCollide | src/hlsfield/fields.py:29-39 | A flat sidecar key never equals a nested sidecar key of the same name. |
| ArtifactKeys.SiblingExtensionsShareBase | src/hlsfield/fields.py:21-23 | `videos/a.mp4` and `videos/a.mov` share the base key `videos/a`, so their sidecars and HLS trees coincide. |
| ArtifactKeys.OutputRootInjective | src/hlsfield/tasks.py:27-29 | For a fixed name, two subdir labels give the same output root exactly when they are equal. |
| ArtifactKeys.StripOutputRoot | src/hlsfield/utils.py:117 | `rstrip('/')` of the output root gives back `base/subdir` exactly when the subdir is non-empty and has no trailing `/`. Otherwise it strips further. |
| ArtifactKeys.MasterKeyMatchesUpload | src/hlsfield/tasks.py:51-53 | The master key written on the record equals the key the uploaded root `master.m3u8` gets, exactly when the subdir label is non-empty with no trailing `/`. |
| ArtifactKeys.TreeNeverOverwritesSidecar | src/hlsfield/tasks.py:27-29 | For a well-formed subdir, and sidecar filenames without `/`, no uploaded tree key equals the meta or preview key of the same name. |
| ArtifactKeys.DistinctSubdirTreesDisjoint | src/hlsfield/tasks.py:27-29 | Trees uploaded under two different well-formed single-segment subdirs share no key. |
| ArtifactKeys.TreeKeyInjective | src/hlsfield/utils.py:116-117 | Under one base path, two relative paths map to the same key exactly when they agree after the backslash replacement. |
| ArtifactKeys.BaseKeyOfSimpleName | src/hlsfield/fields.py:21-23 | `dir + stem + ".ext"`, with a plain stem, has base key `dir + stem`. |
| ArtifactKeys.FlatSidecarExample | src/hlsfield/fields.py:29-39 | In the flat layout, `videos/a.mp4` has sidecars `videos/a_meta.json` and `videos/a_preview.jpg`. |
| ArtifactKeys.NestedSidecarExample | src/hlsfield/fields.py:29-39 | In the nested layout, `videos/a.mp4` has sidecars `videos/a/meta.json` and `videos/a/preview.jpg`. |
| ArtifactKeys.OutputRootExample | src/hlsfield/tasks.py:27-29 | `path/to/video.mp4` with `hls` gives `path/to/video/hls/`. |
| ArtifactKeys.OutputRootNoExtension | src/hlsfield/tasks.py:27-29 | `video_without_ext` with `dash` gives `video_without_ext/dash/`. |
| ArtifactKeys.NoDotNoExtension | src/hlsfield/fields.py:21-23 | A name without any `.` is its own base key. |
| ArtifactKeys.DotOnlyPrefixHasNoExtension | src/hlsfield/fields.py:21-23 | Leading dots of a dot-free basename (`.bashrc`, `..mp4`) never start an extension, under any directory prefix (`videos/.bashrc`). |
| Text.RStripSlashes | src/hlsfield/utils.py:117 | The result is a prefix of the input with no trailing `/`, and everything removed is `/`. |
| Text.ReplaceBackslashes | src/hlsfield/utils.py:116 | The result has the same length and no backslash. Each backslash becomes `/` and every other character is kept. |
| Text.SplitJoinLines | src/hlsfield/utils.py:107 | Joining lines that hold no newline with `"\n"` and splitting again gives the same lines back. |
| Text.IntToStringInjective | src/hlsfield/utils.py:64 | Decimal rendering of integers is injective. |
| Text.ParseNatToString | src/hlsfield/utils.py:99 | Reading back the decimal rendering of a natural gives the number. |
| Probe.FirstIndexOfType | src/hlsfield/utils.py:35-42 | The result is `None` exactly when no stream has the type. Otherwise it is the index of the first stream with it. |
| Probe.PickVideoAudioStreams | src/hlsfield/utils.py:35-42 | The loop returns the first video and the first audio stream. Each is `None` exactly when no stream of that type exists. |
| Probe.PickExample | src/hlsfield/utils.py:35-42 | With streams `[v1, a1, v2, a2]`, the picks are `v1` and `a1`, and later streams of a type are ignored. |
| StableSort.SortBy | src/hlsfield/utils.py:104 | The output is sorted by key and is a permutation of the input (same length and multiset). It keeps the elements of each key in their input order, as Python's stable `sorted` does. |
| StableSort.StableSortUnique | src/hlsfield/utils.py:104 | Any sequence that is sorted and keeps every key group of the input in order is the sort's output. |
| StableSort.SortEqualIffSameGroups | src/hlsfield/utils.py:104 | Two inputs sort to the same output exactly when their key groups are equal. |
| StableSort.SortPermutationInvariant | src/hlsfield/utils.py:104 | With pairwise distinct keys, any permutation of the input sorts to the same output. |
| Hls.ApproxWidth | src/hlsfield/utils.py:93 | The width is even and is the largest even `w` with `9w <= 16h`. It is non-negative for `h >= 0`. |
| Hls.VariantOf | src/hlsfield/utils.py:64-100 | A variant keeps its rung's height. Its bandwidth is `(v + a) * 1000` with audio and `v * 1000` without. Its directory is `VariantDir(h)`, its playlist `index.m3u8` and its resolution `Resolution(h)`, all of the rung's height. |
| Hls.VariantUri | src/hlsfield/utils.py:64-66 | The URI line the master lists for a rung is `v{h}/index.m3u8`, the path the encoder writes that rung's playlist to. |
| Hls.VariantDir | src/hlsfield/utils.py:64 | `v{h}` is one path segment with no line break; `VariantDirInjective` shows distinct heights get distinct directories. |
| Hls.Resolution | src/hlsfield/utils.py:93-99 | The resolution string contains the `x` separator and no line break; `ResolutionRoundTrip` parses it back to width and height. |
| Hls.StreamInfLine | src/hlsfield/utils.py:105 | The stream-info line starts with `#EXT-X-STREAM-INF:BANDWIDTH=` and is one line whenever the resolution is; `StreamInfRoundTrip` shows it carries the bandwidth and resolution. |
| Hls.StreamInfRoundTrip | src/hlsfield/utils.py:105 | Reading a stream-info line back (digits up to the first `,`, then the text after `,RESOLUTION=`) gives exactly the variant's bandwidth and resolution, for a non-negative bandwidth. |
| Hls.UriLine | src/hlsfield/utils.py:106 | The URI line is the directory, one `/`, then the playlist name. `VariantUriResolves` shows it names the uploaded playlist key. |
| Hls.Variants | src/hlsfield/utils.py:59-100 | One variant per rung, in ladder order, all with the same audio decision. |
| Hls.MasterLines | src/hlsfield/utils.py:102-106 | The playlist has `2 + 2n` lines. The first two are `#EXTM3U` and `#EXT-X-VERSION:3`. Line pairs `2+2k` and `3+2k` are the stream-info and URI of the `k`-th variant in stable height order. |
| Hls.MasterEntryCarriesVariant | src/hlsfield/utils.py:93-106 | For a ladder of non-negative values, master line `2+2k` reads back as the bandwidth and resolution of the `k`-th variant in height order. That variant belongs to some rung of the ladder, and its resolution reads back as `ApproxWidth(h)` by `h`. |
| Hls.MasterText | src/hlsfield/utils.py:107 | When no variant's resolution or URI holds a newline, splitting the master text on newlines gives back exactly the `2 + 2n` master lines. |
| Hls.EncodeLadder | src/hlsfield/utils.py:59-100 | The loop succeeds exactly when every rung encodes, and then yields one variant per rung in ladder order. A failure names the first failing rung. |
| Hls.TranscodeHlsVariants | src/hlsfield/utils.py:51-108 | A failed probe fails. Otherwise the run succeeds exactly when every rung encodes. A success carries the variants of the ladder, with audio decided once from the probe, and the master text built from them. |
| Hls.TranscodedMasterLines | src/hlsfield/utils.py:102-107 | The master text of a ladder's variants splits back into its `2 + 2n` lines. |
| Hls.VariantDirInjective | src/hlsfield/utils.py:64 | Two rungs share a variant directory exactly when their heights are equal. |
| Hls.DuplicateHeightsListedTwice | src/hlsfield/utils.py:64-66 | Duplicate heights share one URI and are still listed once per rung. |
| Hls.ResolutionRoundTrip | src/hlsfield/utils.py:99 | The `"{w}x{h}"` string parses back to the width and height. |
| Hls.VariantsGroups | src/hlsfield/utils.py:94-100 | Filtering the variants by height is the same as computing the variants of the filtered ladder. |
| Hls.MasterDependsOnlyOnGroups | src/hlsfield/utils.py:104-106 | Ladders whose rungs of each height come in the same order give the same master lines. |
| Hls.MasterPermutationInvariant | src/hlsfield/utils.py:102-107 | Any permutation of a ladder with pairwise distinct heights gives the same master text. |
| Hls.MasterAscending | src/hlsfield/utils.py:104 | The variants appear in the master in non-decreasing height. |
| Hls.MasterLinesNoNewlines | src/hlsfield/utils.py:105-106 | No master line contains a newline, so the `"\n"` join is unambiguous. |
| Fields.OrDefault | src/hlsfield/fields.py:193-195 | A `None` or falsy argument yields the default, and any other argument is kept. |
| Fields.MakeVideoField | src/hlsfield/fields.py:185-195 | The model-field options and `process_on_save` are kept as given. Each sidecar setting is the argument when it is non-empty, otherwise the package default. |
| Fields.MakeHlsVideoField | src/hlsfield/fields.py:224-229 | The playlist option and `hls_on_save` are kept. The subdir, ladder and segment duration are the argument when it is truthy, otherwise the package default. |
| Fields.ConfigFallsBackToDefaults | src/hlsfield/fields.py:193-227 | The layout, the filenames and the HLS subdir take their default exactly when the argument is `None` or empty. The ladder falls back when `None` or empty, and the segment duration when `None` or zero. |
| Fields.Metadata | src/hlsfield/fields.py:41-59 | With model fields, only the four known keys appear. Width, height and `preview_name` are present exactly when their option is set, each holding that attribute's value. `duration_seconds` is present exactly when the duration attribute holds a `timedelta`, and holds its whole seconds truncated toward zero. Without model fields, the result is the stored sidecar, or `{}` when there is none. |
| Fields.WholeSeconds | src/hlsfield/fields.py:50 | `int(total_seconds())` truncates toward zero. |
| Fields.PreviewUrl | src/hlsfield/fields.py:61-76 | A set preview option with a non-empty value gives that value's URL, with no fall-through. Otherwise the URL of the preview key is returned if that key exists, and `None` if not. |
| Fields.PreviewUrlNeedsArtifact | src/hlsfield/fields.py:61-76 | A URL is returned only when the preview attribute is non-empty or the preview key exists. |
| Fields.MasterUrl | src/hlsfield/fields.py:78-89 | A URL is returned only for a configured, non-empty playlist attribute, and then it is that value's URL. |
| Fields.ProbedMeta | src/hlsfield/fields.py:101-131 | The duration is present exactly when the container reports one, and holds those whole seconds. Width and height are present exactly when a video stream exists, and hold the first video stream's values (a missing one reads as 0). The preview name is present exactly when the preview was saved, and holds the preview key. |
| Fields.WriteFields | src/hlsfield/fields.py:114-128 | Only the attribute of a set option whose entry was collected is added or changed; every other attribute, including that of a set option with nothing collected, keeps its value. Each set option with a collected entry is written, and the preview attribute, written last, holds the preview name. |
| Fields.SaveVideo | src/hlsfield/fields.py:91-143 | With `process_on_save` off nothing changes. A failing probe propagates. Storage only gains keys. The record gains or changes only the attributes of set options whose entry the probe and preview collected. Every other attribute except `video_processed_at` keeps its value. `video_processed_at` becomes `now` when the record has it, and is never added otherwise unless a model field names it. |
| Fields.SidecarWrittenIffRead | src/hlsfield/fields.py:133-140 | Without model-field options, `save` stores the probed metadata under the meta key. With any option set, it leaves every sidecar untouched. |
| Fields.SidecarRoundTrip | src/hlsfield/fields.py:41-59 | Without model fields, `metadata()` after `save` returns exactly the probed metadata. |
| Fields.ReadWrittenFields | src/hlsfield/fields.py:47-53 | Attributes written from metadata, duration as a `timedelta`, read back as that metadata. |
| Fields.ModelFieldsRoundTrip | src/hlsfield/fields.py:114-129 | With distinct model fields, `metadata()` after `save` reports every probed value whose option is set. |
| Fields.DivExact | src/hlsfield/fields.py:115 | Whole seconds survive the trip through a `timedelta`. |
| Fields.FailedPreviewKeepsAttribute | src/hlsfield/fields.py:122-130 | A save whose preview extraction fails leaves the preview attribute unchanged, so an earlier preview name survives. |
| Fields.PreviewUrlAfterSave | src/hlsfield/fields.py:121-131 | After a save with a preview, `preview_url()` is the URL of the preview key, whether found through the attribute or the storage. |
| Fields.MetadataSourceIsExclusive | src/hlsfield/fields.py:44-59 | In model-field mode `metadata()` ignores storage, and in sidecar mode it ignores the record. |
| Deferral.OnUpload | src/hlsfield/fields.py:203-209 | With `hls_on_save` off there is no trigger and no flag. Without a primary key the field's flag is set and nothing is triggered. With one, the build is triggered and nothing else changes. |
| Deferral.PostSaveHandler | src/hlsfield/fields.py:234-241 | The handler triggers exactly when the field's flag is set, and always leaves it cleared. |
| Deferral.HandlerTriggersOnce | src/hlsfield/fields.py:234-241 | A second `post_save` does not trigger again. |
| Deferral.HandlersIndependent | src/hlsfield/fields.py:234-241 | One field's flag and handler do not affect another field's. |
| Deferral.Step | src/hlsfield/fields.py:230-243 | A save gives the record a key, clears every flag, and triggers each flagged field once. |
| Deferral.TriggersAtMostUploads | src/hlsfield/fields.py:203-241 | Over any sequence of uploads and saves, a field is never triggered more often than it was uploaded with `hls_on_save`. |
| Deferral.TriggersMonotone | src/hlsfield/fields.py:203-241 | A field's trigger count never decreases along a run; neither an upload nor a save takes a trigger back. |
| Deferral.UploadsServedOrPending | src/hlsfield/fields.py:203-241 | Take any single upload of a field with `hls_on_save`. After it, the field has been triggered at least once more than before it, or its flag is still set. |
| Deferral.EverySavedUploadTriggers | src/hlsfield/fields.py:203-241 | After a final save no flag remains. Each individual upload with `hls_on_save` is followed by a trigger of its field at or after that upload. |
| Deferral.WithPkTriggersEachUpload | src/hlsfield/fields.py:206-209 | On a record with a key, each upload triggers exactly once. |
| Deferral.DeferredUploadsTriggerOnce | src/hlsfield/fields.py:206-208 | Two uploads before the first save trigger once, and two saves after one upload trigger once. |
| Tasks.SaveTreeToStorage | src/hlsfield/utils.py:111-121 | One key per listed file, in listing order. Each key is the stripped base path, `/`, and the relative path with backslashes replaced. |
| Tasks.WriteBack | src/hlsfield/tasks.py:54-67 | Without a playlist option the record gets a full save. With one, `update_fields` starts with the playlist attribute, has at most two entries, and names nothing but the playlist and `hls_built_at` attributes. Only the playlist attribute can be added to the record. Whenever the record has `hls_built_at` afterwards, it holds `now`. |
| Tasks.WriteBackPersistsChanges | src/hlsfield/tasks.py:54-67 | Every attribute the write-back changes is in `update_fields` (or the save is full). Attributes other than the playlist and `hls_built_at` are untouched. |
| Tasks.WriteBackRecordsMaster | src/hlsfield/tasks.py:54-64 | The playlist attribute holds the master key, unless it is `hls_built_at` itself. `hls_built_at` is saved exactly when the record has it. |
| Tasks.MasterUrlAfterWriteBack | src/hlsfield/tasks.py:55-56 | After the write-back, `master_url()` is the URL of the master key. |
| Tasks.BuildHlsForFieldSync | src/hlsfield/tasks.py:37-67 | The build succeeds exactly when the probe and every rung succeed. On success the variants follow the ladder, the master key is `root + "master.m3u8"`, every listed file is uploaded under the root, and the record gets the write-back. |
| Tasks.MasterKeyUploaded | src/hlsfield/tasks.py:51-53 | With the root `master.m3u8` in the listing and a well-formed subdir, the recorded master key is among the uploaded keys. |
| Tasks.VariantUriResolves | src/hlsfield/utils.py:106 | A variant URI, read relative to the master's directory, is exactly the key that variant's playlist is uploaded under. |

## Left out

- Subprocess calls (`run`, `ffprobe_streams`, `extract_preview`, the ffmpeg argument lists). The prober is an `Option`, the encoder a per-rung oracle, preview extraction a `bool`.
- Hls.TranscodeHlsVariants: the `maxrate`/`bufsize` rate-control values are not modelled; they exist only in the encoder's arguments.
- Hls.ApproxWidth: it is the integer form `2*((8*h)/9)` of `int((h*16/9)//2*2)`. These agree for `h >= 0` apart from float rounding for huge heights, which is not modelled.
- Probe.ProbeInfo: `int(float(format.duration))` is taken as already cut to whole seconds. An unparsable duration is `None`. Width and height are integers. A non-numeric value makes `int(v.get("width") or 0)` fail (fields.py:109-112); the `except` then drops that entry, and a bad width drops the height too. That case is not modelled.
- Storage I/O. `tempdir`, `pull_to_local`, `storage.save/open/url/exists` and the `os.walk` traversal become parameters. `storage.save` is assumed to keep the key it is given; Django's renaming of an existing name (`get_available_name`) is not modelled.
- Fields.UrlOf: only a string attribute value is passed to `storage.url`. The source calls `storage.url` on any truthy value (fields.py:64-70), and what the storage does with a non-string is not modelled; the model reports `None`.
- Fields.SaveVideo: the JSON encoding of the sidecar is taken to round-trip its integers and strings. Exceptions from `json.dumps` or the storage are not modelled.
- Deferral.OnUpload: the upload step models the check after `super().save`. Django's own `FieldFile.save(save=True)` saves the record, and so gives it a key, before that check; this lies in Django and is not modelled. The state machine takes key presence as given. An upload whose `super().save` raises is not an event.
- `_trigger_hls` dispatch (Celery `delay` or the synchronous call) and its fallback: a trigger is a single event.
- The `upload_to` auto-logic of `VideoField.__init__` (fields.py:163-181): the storage name is taken as given; `upload_to` only decides it.
- `preview_at` only selects the frame passed to `extract_preview` (fields.py:124); preview extraction is a `bool` outcome.
- `_resolve_field`, `apps.get_model`, `transaction.atomic`, and `timezone.now` (a parameter).
- DASH and adaptive fields, and ladder validation and selection, are not part of this model.
- The `CODECS` attribute, retries and partial-failure skipping: the repository's tests expect them from `hlsfield.utils` (tests/test_transcoding.py:9, 558, 578). The `utils.py` text modelled here has none of them (utils.py:59-107), and the model follows that text.
- Hls.EncodeLadder: a rung missing a key or holding a non-numeric value raises at `int(rung[...])` (utils.py:61-63). The model's `Rung` always holds integers, so that failure is not modelled.
- Fields.WholeSeconds: `total_seconds()` is a float (fields.py:50). The model divides the integer microseconds exactly. The two agree only while the duration fits a float's 53-bit mantissa in microseconds, about 2^33 seconds.

=== FILE: common.dfy ===
/** Failure-compatible wrappers shared by the whole model.

    Python signals absence with `None` and failure with an exception; the model
    uses `Option` for the first and `Result` for the second, so that every error
    path of the source is a value a contract can talk about. */
module Common {

  datatype Option<+T> = None | Some(value: T) {
    function GetOr(default: T): T {
      match this
      case Some(v) => v
      case None => default
    }
  }

  /** The exceptions that escape the modelled operations. */
  datatype Error =
    | ProbeFailed              // `ffprobe_streams` raised (non-zero exit or bad JSON)
    | EncoderFailed(rung: nat) // `run` raised for the encoder call of this ladder position

  datatype Result<+T> = Success(value: T) | Failure(error: Error) {
    predicate IsFailure() {
      Failure?
    }

    function PropagateFailure<U>(): Result<U>
      requires Failure?
    {
      Failure(error)
    }

    function Extract(): T
      requires Success?
    {
      value
    }
  }

  /** Python truthiness of an optional attribute name: `None` and `""` are falsy. */
  predicate IsSet(name: Option<string>) {
    name.Some? && name.value != ""
  }
}

=== FILE: deferral.dfy ===
/** When an HLS field hands its upload to the HLS builder: straight away if
    the record already has a primary key, or after the record's next save
    (the `post_save` handler) if not. */
module Deferral {

  /** The parts of a model instance the trigger logic reads: whether it has a
      primary key, and the attribute names of the fields whose pending flag
      (`__hls_pending__<name>`) is true. */
  datatype Instance = Instance(hasPk: bool, pending: set<string>)

  /** One call's outcome: the updated instance and whether the builder was
      triggered for the field. */
  datatype Outcome = Outcome(inst: Instance, triggered: bool)

  /** The check `HLSVideoFieldFile.save` makes once the file is stored. */
  function OnUpload(inst: Instance, field: string, hlsOnSave: bool): (r: Outcome)
    ensures !hlsOnSave ==> r == Outcome(inst, false)
    ensures hlsOnSave && !inst.hasPk ==>
              !r.triggered && r.inst.hasPk == inst.hasPk && r.inst.pending == inst.pending + {field}
    ensures hlsOnSave && inst.hasPk ==> r.triggered && r.inst == inst
  {
    if !hlsOnSave then Outcome(inst, false)
    else if !inst.hasPk then Outcome(inst.(pending := inst.pending + {field}), false)
    else Outcome(inst, true)
  }

  /** The `post_save` handler of one field: a set flag is cleared and the builder
      triggered; otherwise nothing happens. */
  function PostSaveHandler(inst: Instance, field: string): (r: Outcome)
    ensures r.triggered <==> field in inst.pending
    ensures field !in r.inst.pending
    ensures r.inst.pending == inst.pending - {field} && r.inst.hasPk == inst.hasPk
  {
    if field in inst.pending then Outcome(inst.(pending := inst.pending - {field}), true)
    else Outcome(inst, false)
  }

  /** Running a field's handler a second time (a second `post_save`) triggers
      nothing and changes nothing. */
  lemma HandlerTriggersOnce(inst: Instance, field: string)
    ensures var once := PostSaveHandler(inst, field);
            var twice := PostSaveHandler(once.inst, field);
            !twice.triggered && twice.inst == once.inst
  {
  }

  /** Handlers of different fields do not see each other's flag. */
  lemma HandlersIndependent(inst: Instance, f: string, g: string)
    requires f != g
    ensures PostSaveHandler(PostSaveHandler(inst, f).inst, g).triggered == (g in inst.pending)
    ensures f in OnUpload(inst, g, true).inst.pending <==> f in inst.pending
  {
  }

  /** What happens to an instance over time: a field upload, or a save of the
      whole record (which gives it a key and runs every field's handler). */
  datatype Event = Upload(field: string, hlsOnSave: bool) | Save

  /** An instance together with every trigger so far, counted per field. */
  datatype State = State(inst: Instance, triggers: multiset<string>)

  function Step(s: State, e: Event): (r: State)
    ensures e.Save? ==> r.inst == Instance(true, {})
    ensures e.Save? ==> forall f :: r.triggers[f] == s.triggers[f] + (if f in s.inst.pending then 1 else 0)
  {
    match e
    case Upload(field, hlsOnSave) =>
      var o := OnUpload(s.inst, field, hlsOnSave);
      State(o.inst, if o.triggered then s.triggers + multiset{field} else s.triggers)
    case Save =>
      State(Instance(true, {}), s.triggers + multiset(s.inst.pending))
  }

  /** The state after a sequence of events, with no trigger before the first. */
  function Run(inst: Instance, events: seq<Event>): State
    decreases |events|
  {
    if |events| == 0 then State(inst, multiset{})
    else Step(Run(inst, events[..|events| - 1]), events[|events| - 1])
  }

  /** How many uploads of `field` with `hls_on_save` on the events hold. */
  function HlsUploads(events: seq<Event>, field: string): nat
    decreases |events|
  {
    if |events| == 0 then 0
    else HlsUploads(events[..|events| - 1], field)
         + (if events[|events| - 1] == Upload(field, true) then 1 else 0)
  }

  function Flag(inst: Instance, field: string): nat {
    if field in inst.pending then 1 else 0
  }

  /** Never more triggers than uploads: a trigger uses up either one upload or a
      flag set before the run, and an upload consumed as a flag still waits. */
  lemma {:induction false} TriggersAtMostUploads(inst: Instance, events: seq<Event>, field: string)
    ensures var s := Run(inst, events);
            s.triggers[field] + Flag(s.inst, field) <= HlsUploads(events, field) + Flag(inst, field)
    decreases |events|
  {
    if |events| > 0 {
      TriggersAtMostUploads(inst, events[..|events| - 1], field);
    }
  }

  /** One step never takes a trigger back, and a set flag is either still set
      afterwards or has just been turned into a trigger. */
  lemma StepKeepsService(s: State, e: Event, field: string)
    ensures Step(s, e).triggers[field] >= s.triggers[field]
    ensures field in s.inst.pending ==>
              Step(s, e).triggers[field] > s.triggers[field] || field in Step(s, e).inst.pending
  {
  }

  /** An upload of the field with `hls_on_save` either triggers it or leaves its
      flag set. */
  lemma UploadStepServes(s: State, field: string)
    ensures Step(s, Upload(field, true)).triggers[field] > s.triggers[field]
            || field in Step(s, Upload(field, true)).inst.pending
  {
  }

  /** Triggers are only ever added: a prefix of a run never has more. */
  lemma {:induction false} TriggersMonotone(inst: Instance, events: seq<Event>, field: string, n: nat)
    requires n <= |events|
    ensures Run(inst, events[..n]).triggers[field] <= Run(inst, events).triggers[field]
    decreases |events|
  {
    if n < |events| {
      var prefix := events[..|events| - 1];
      assert prefix[..n] == events[..n];
      TriggersMonotone(inst, prefix, field, n);
      StepKeepsService(Run(inst, prefix), events[|events| - 1], field);
    } else {
      assert events[..n] == events;
    }
  }

  /** Every upload is served: the upload at position `i` is followed, at or after
      `i`, by a trigger of its field, or its field's flag is still set. */
  lemma {:induction false} UploadsServedOrPending(inst: Instance, events: seq<Event>, field: string, i: nat)
    requires i < |events| && events[i] == Upload(field, true)
    ensures Run(inst, events).triggers[field] > Run(inst, events[..i]).triggers[field]
            || field in Run(inst, events).inst.pending
    decreases |events|
  {
    var prefix := events[..|events| - 1];
    var before := Run(inst, prefix);
    var after := Run(inst, events);
    assert after == Step(before, events[|events| - 1]);
    if i == |events| - 1 {
      assert prefix == events[..i];
      UploadStepServes(before, field);
    } else {
      var x := Run(inst, events[..i]).triggers[field];
      assert prefix[..i] == events[..i];
      UploadsServedOrPending(inst, prefix, field, i);
      TriggersMonotone(inst, prefix, field, i);
      assert before.triggers[field] > x || field in before.inst.pending;
      StepKeepsService(before, events[|events| - 1], field);
      assert after.triggers[field] >= before.triggers[field];
    }
  }

  /** A record saved after its uploads has no pending flag left, and every upload
      of a field with `hls_on_save` is followed, at or after it, by a trigger of
      that field. */
  lemma EverySavedUploadTriggers(inst: Instance, events: seq<Event>, field: string, i: nat)
    requires |events| > 0 && events[|events| - 1] == Save
    requires i < |events| && events[i] == Upload(field, true)
    ensures Run(inst, events).inst.pending == {}
    ensures Run(inst, events).triggers[field] > Run(inst, events[..i]).triggers[field]
  {
    var prefix := events[..|events| - 1];
    var before := Run(inst, prefix);
    var x := Run(inst, events[..i]).triggers[field];
    assert i < |prefix|;
    assert prefix[..i] == events[..i];
    UploadsServedOrPending(inst, prefix, field, i);
    TriggersMonotone(inst, prefix, field, i);
    assert before.triggers[field] > x || field in before.inst.pending;
    assert Run(inst, events) == Step(before, Save);
    assert Run(inst, events).triggers[field] == before.triggers[field] + Flag(before.inst, field);
  }

  /** On a record that already has a key and no flag, every upload triggers at
      once: the number of triggers is exactly the number of uploads. */
  lemma {:induction false} WithPkTriggersEachUpload(inst: Instance, events: seq<Event>, field: string)
    requires inst.hasPk && inst.pending == {}
    ensures Run(inst, events).inst == inst
    ensures Run(inst, events).triggers[field] == HlsUploads(events, field)
    decreases |events|
  {
    if |events| > 0 {
      WithPkTriggersEachUpload(inst, events[..|events| - 1], field);
    }
  }

  /** Two uploads before the first save collapse into one pending flag: the save
      triggers the field once. */
  lemma DeferredUploadsTriggerOnce(field: string)
    ensures Run(Instance(false, {}), [Upload(field, true), Upload(field, true), Save]).triggers[field] == 1
    ensures Run(Instance(false, {}), [Upload(field, true), Save, Save]).triggers[field] == 1
  {
    var u, e := Upload(field, true), Instance(false, {});
    var e1 := [u, u, Save];
    assert e1[..2] == [u, u] && e1[..2][..1] == [u] && e1[..2][..1][..0] == [];
    assert [u][..0] == [] && [u, u][..1] == [u] && [u, Save][..1] == [u];
    assert Run(e, []) == State(e, multiset{});
    var s1 := Run(e, [u]);
    assert s1 == State(Instance(false, {field}), multiset{});
    assert Run(e, [u, u]) == s1;
    var e2 := [u, Save, Save];
    assert e2[..2] == [u, Save] && e2[..2][..1] == [u];
    var s2 := Run(e, [u, Save]);
    assert s2.inst.pending == {} && s2.triggers[field] == 1;
  }
}

=== FILE: fields.dfy ===
/** The video model field: its resolved configuration, what `save` writes
    (record attributes, preview image, JSON sidecar), and how `metadata()` and
    `preview_url()` read it back. */
module Fields {
  import opened Common
  import opened ArtifactKeys
  import opened Probe
  import Hls

  /** An attribute value on a record, as far as the field reads or writes it. */
  datatype Value =
    | Null
    | Int(i: int)
    | Str(s: string)
    | Duration(micros: int)  // a `timedelta`, at its microsecond resolution
    | Timestamp(t: int)      // a `timezone.now()` value

  /** A record's attributes; a missing name reads as `None` (`getattr(inst, n, None)`). */
  type Record = map<string, Value>

  /** A metadata dictionary (the JSON sidecar, or what `metadata()` returns). */
  type Meta = map<string, Value>

  /** The storage as the field sees it: which keys exist, and the parsed JSON
      content of the sidecars that were written. */
  datatype Store = Store(files: set<string>, sidecars: map<string, Meta>)

  /** Package-wide defaults (the settings module, which is not part of this model). */
  datatype Defaults = Defaults(
    sidecarLayout: string,
    previewFilename: string,
    metaFilename: string,
    hlsSubdir: string,
    ladder: seq<Hls.Rung>,
    segmentDuration: int)

  /** A `VideoField` after `__init__`. */
  datatype VideoField = VideoField(
    durationField: Option<string>,
    widthField: Option<string>,
    heightField: Option<string>,
    previewField: Option<string>,
    processOnSave: bool,
    sidecar: SidecarPolicy)

  /** An `HLSVideoField` after `__init__`. */
  datatype HlsVideoField = HlsVideoField(
    video: VideoField,
    playlistField: Option<string>,
    baseSubdir: string,
    ladder: seq<Hls.Rung>,
    segmentDuration: int,
    hlsOnSave: bool)

  const DurationKey: string := "duration_seconds"
  const WidthKey: string := "width"
  const HeightKey: string := "height"
  const PreviewNameKey: string := "preview_name"
  const ProcessedAtAttr: string := "video_processed_at"
  const MicrosPerSecond: int := 1000000

  // ---------------------------------------------------------------------------
  // Configuration

  /** Python's `arg or default`, where `empty` is the one falsy value of the type. */
  function OrDefault<T(==)>(arg: Option<T>, empty: T, default: T): (r: T)
    ensures arg.None? || arg == Some(empty) ==> r == default
    ensures arg.Some? && arg.value != empty ==> r == arg.value
  {
    if arg.Some? && arg.value != empty then arg.value else default
  }

  function MakeVideoField(
    durationField: Option<string>, widthField: Option<string>,
    heightField: Option<string>, previewField: Option<string>,
    processOnSave: bool, sidecarLayout: Option<string>,
    previewFilename: Option<string>, metaFilename: Option<string>,
    defaults: Defaults): (f: VideoField)
    ensures f.durationField == durationField && f.widthField == widthField
    ensures f.heightField == heightField && f.previewField == previewField
    ensures f.processOnSave == processOnSave
    ensures f.sidecar.layout == if IsSet(sidecarLayout) then sidecarLayout.value else defaults.sidecarLayout
    ensures f.sidecar.metaFilename == if IsSet(metaFilename) then metaFilename.value else defaults.metaFilename
    ensures f.sidecar.previewFilename ==
              if IsSet(previewFilename) then previewFilename.value else defaults.previewFilename
  {
    VideoField(
      durationField, widthField, heightField, previewField, processOnSave,
      SidecarPolicy(
        OrDefault(sidecarLayout, "", defaults.sidecarLayout),
        OrDefault(metaFilename, "", defaults.metaFilename),
        OrDefault(previewFilename, "", defaults.previewFilename)))
  }

  function MakeHlsVideoField(
    video: VideoField, playlistField: Option<string>, baseSubdir: Option<string>,
    ladder: Option<seq<Hls.Rung>>, segmentDuration: Option<int>, hlsOnSave: bool,
    defaults: Defaults): (h: HlsVideoField)
    ensures h.video == video && h.playlistField == playlistField && h.hlsOnSave == hlsOnSave
    ensures h.baseSubdir == if IsSet(baseSubdir) then baseSubdir.value else defaults.hlsSubdir
    ensures h.ladder == if ladder.Some? && ladder.value != [] then ladder.value else defaults.ladder
    ensures h.segmentDuration ==
              if segmentDuration.Some? && segmentDuration.value != 0 then segmentDuration.value
              else defaults.segmentDuration
  {
    HlsVideoField(
      video, playlistField,
      OrDefault(baseSubdir, "", defaults.hlsSubdir),
      OrDefault(ladder, [], defaults.ladder),
      OrDefault(segmentDuration, 0, defaults.segmentDuration),
      hlsOnSave)
  }

  /** A `None` or empty argument falls back to the default; a non-empty one is kept. */
  lemma ConfigFallsBackToDefaults(
    layout: Option<string>, previewFilename: Option<string>, metaFilename: Option<string>,
    subdir: Option<string>, ladder: Option<seq<Hls.Rung>>, segmentDuration: Option<int>,
    defaults: Defaults)
    ensures var f := MakeVideoField(None, None, None, None, true, layout, previewFilename, metaFilename, defaults);
            && f.sidecar.layout == (if IsSet(layout) then layout.value else defaults.sidecarLayout)
            && f.sidecar.previewFilename == (if IsSet(previewFilename) then previewFilename.value else defaults.previewFilename)
            && f.sidecar.metaFilename == (if IsSet(metaFilename) then metaFilename.value else defaults.metaFilename)
    ensures var h := MakeHlsVideoField(
              MakeVideoField(None, None, None, None, true, layout, previewFilename, metaFilename, defaults),
              None, subdir, ladder, segmentDuration, true, defaults);
            && h.baseSubdir == (if IsSet(subdir) then subdir.value else defaults.hlsSubdir)
            && h.ladder == (if ladder.Some? && ladder.value != [] then ladder.value else defaults.ladder)
            && h.segmentDuration == (if segmentDuration.Some? && segmentDuration.value != 0
                                     then segmentDuration.value else defaults.segmentDuration)
  {
  }

  /** The attribute names the set model-field options point at. */
  function ModelAttrs(f: VideoField): set<string> {
    (if IsSet(f.durationField) then {f.durationField.value} else {})
    + (if IsSet(f.widthField) then {f.widthField.value} else {})
    + (if IsSet(f.heightField) then {f.heightField.value} else {})
    + (if IsSet(f.previewField) then {f.previewField.value} else {})
  }

  /** The attributes `save` writes for the collected metadata `meta`: that of
      each set option whose entry was collected. */
  function WrittenAttrs(f: VideoField, meta: Meta): (w: set<string>)
    ensures w <= ModelAttrs(f)
  {
    (if IsSet(f.durationField) && DurationKey in meta then {f.durationField.value} else {})
    + (if IsSet(f.widthField) && WidthKey in meta then {f.widthField.value} else {})
    + (if IsSet(f.heightField) && HeightKey in meta then {f.heightField.value} else {})
    + (if IsSet(f.previewField) && PreviewNameKey in meta then {f.previewField.value} else {})
  }

  /** Any of the four model-field options is set: metadata lives on the record. */
  predicate HasModelFields(f: VideoField) {
    IsSet(f.durationField) || IsSet(f.widthField) || IsSet(f.heightField) || IsSet(f.previewField)
  }

  // ---------------------------------------------------------------------------
  // Reading

  function Attr(rec: Record, name: string): Value {
    if name in rec then rec[name] else Null
  }

  predicate Truthy(v: Value) {
    match v
    case Null => false
    case Int(i) => i != 0
    case Str(s) => s != ""
    case Duration(m) => m != 0
    case Timestamp(_) => true
  }

  /** `int(d.total_seconds())`: whole seconds, truncated toward zero. */
  function WholeSeconds(micros: int): (s: int)
    ensures micros >= 0 ==> 0 <= s && s * MicrosPerSecond <= micros < s * MicrosPerSecond + MicrosPerSecond
    ensures micros < 0 ==> s <= 0 && s * MicrosPerSecond - MicrosPerSecond < micros <= s * MicrosPerSecond
  {
    if micros >= 0 then micros / MicrosPerSecond else -((-micros) / MicrosPerSecond)
  }

  /** `metadata()`: with model fields, the record attributes named by the set
      options (duration only when it holds a `timedelta`); otherwise the parsed
      JSON sidecar, or `{}` when it cannot be read. */
  function Metadata(f: VideoField, name: string, rec: Record, store: Store): (m: Meta)
    ensures HasModelFields(f) ==> m.Keys <= {DurationKey, WidthKey, HeightKey, PreviewNameKey}
    ensures HasModelFields(f) && IsSet(f.widthField) ==> WidthKey in m && m[WidthKey] == Attr(rec, f.widthField.value)
    ensures HasModelFields(f) && !IsSet(f.widthField) ==> WidthKey !in m
    ensures HasModelFields(f) && IsSet(f.heightField) ==> HeightKey in m && m[HeightKey] == Attr(rec, f.heightField.value)
    ensures HasModelFields(f) && !IsSet(f.heightField) ==> HeightKey !in m
    ensures HasModelFields(f) && IsSet(f.previewField) ==>
              PreviewNameKey in m && m[PreviewNameKey] == Attr(rec, f.previewField.value)
    ensures HasModelFields(f) && !IsSet(f.previewField) ==> PreviewNameKey !in m
    ensures HasModelFields(f) ==>
              (DurationKey in m <==> IsSet(f.durationField) && Attr(rec, f.durationField.value).Duration?)
    ensures HasModelFields(f) && DurationKey in m ==>
              m[DurationKey] == Int(WholeSeconds(Attr(rec, f.durationField.value).micros))
    ensures !HasModelFields(f) && MetaKey(name, f.sidecar) in store.sidecars ==>
              m == store.sidecars[MetaKey(name, f.sidecar)]
    ensures !HasModelFields(f) && MetaKey(name, f.sidecar) !in store.sidecars ==> m == map[]
  {
    if HasModelFields(f) then
      var dur := if IsSet(f.durationField) then Attr(rec, f.durationField.value) else Null;
      var m0: Meta := if dur.Duration? then map[DurationKey := Int(WholeSeconds(dur.micros))] else map[];
      var m1 := if IsSet(f.widthField) then m0[WidthKey := Attr(rec, f.widthField.value)] else m0;
      var m2 := if IsSet(f.heightField) then m1[HeightKey := Attr(rec, f.heightField.value)] else m1;
      if IsSet(f.previewField) then m2[PreviewNameKey := Attr(rec, f.previewField.value)] else m2
    else
      var key := MetaKey(name, f.sidecar);
      if key in store.sidecars then store.sidecars[key] else map[]
  }

  /** `storage.url(name)` for whatever the preview attribute holds. The model
      passes only string values to the storage and treats any other value as a
      lookup that fails, which `preview_url` reports as `None`. */
  function UrlOf(v: Value, url: string -> Option<string>): Option<string> {
    if v.Str? then url(v.s) else None
  }

  /** `preview_url()`: a non-empty preview attribute wins (even when its URL
      fails); otherwise the computed preview key if it exists; otherwise `None`. */
  function PreviewUrl(f: VideoField, name: string, rec: Record, store: Store,
                      url: string -> Option<string>): (r: Option<string>)
    ensures IsSet(f.previewField) && Truthy(Attr(rec, f.previewField.value)) ==>
              r == UrlOf(Attr(rec, f.previewField.value), url)
    ensures !(IsSet(f.previewField) && Truthy(Attr(rec, f.previewField.value))) ==>
              r == (if PreviewKey(name, f.sidecar) in store.files then url(PreviewKey(name, f.sidecar)) else None)
  {
    if IsSet(f.previewField) && Truthy(Attr(rec, f.previewField.value)) then
      UrlOf(Attr(rec, f.previewField.value), url)
    else if PreviewKey(name, f.sidecar) in store.files then
      url(PreviewKey(name, f.sidecar))
    else
      None
  }

  /** `master_url()`: the URL of the playlist attribute's value when the HLS
      field names one and the value is non-empty; `None` otherwise. */
  function MasterUrl(playlistField: Option<string>, rec: Record, url: string -> Option<string>)
    : (r: Option<string>)
    ensures r.Some? ==> IsSet(playlistField) && Truthy(Attr(rec, playlistField.value))
    ensures IsSet(playlistField) && Attr(rec, playlistField.value).Str? && Truthy(Attr(rec, playlistField.value)) ==>
              r == url(Attr(rec, playlistField.value).s)
  {
    if IsSet(playlistField) && Truthy(Attr(rec, playlistField.value)) then
      UrlOf(Attr(rec, playlistField.value), url)
    else None
  }

  // ---------------------------------------------------------------------------
  // Writing

  /** The metadata `save` collects from the probe: whole-second duration when the
      container reports one, width and height (missing or zero read as 0) when
      there is a video stream, and the preview key when the preview was saved. */
  function ProbedMeta(info: ProbeInfo, previewKey: string, previewOk: bool): (m: Meta)
    ensures DurationKey in m <==> info.durationSeconds.Some?
    ensures WidthKey in m <==> FirstOfType(info.streams, VideoType).Some?
    ensures HeightKey in m <==> FirstOfType(info.streams, VideoType).Some?
    ensures PreviewNameKey in m <==> previewOk
    ensures m.Keys <= {DurationKey, WidthKey, HeightKey, PreviewNameKey}
    ensures DurationKey in m ==> m[DurationKey] == Int(info.durationSeconds.value)
    ensures WidthKey in m ==> m[WidthKey] == Int(FirstOfType(info.streams, VideoType).value.width.GetOr(0))
    ensures HeightKey in m ==> m[HeightKey] == Int(FirstOfType(info.streams, VideoType).value.height.GetOr(0))
    ensures previewOk ==> m[PreviewNameKey] == Str(previewKey)
  {
    var m0: Meta := if info.durationSeconds.Some? then map[DurationKey := Int(info.durationSeconds.value)] else map[];
    var v := FirstOfType(info.streams, VideoType);
    var m1 := if v.Some? then m0[WidthKey := Int(v.value.width.GetOr(0))][HeightKey := Int(v.value.height.GetOr(0))] else m0;
    if previewOk then m1[PreviewNameKey := Str(previewKey)] else m1
  }

  /** The attribute a metadata entry is stored in: the duration as a `timedelta`,
      the other entries as they are. */
  function Stored(key: string, v: Value): Value {
    if key == DurationKey && v.Int? then Duration(v.i * MicrosPerSecond) else v
  }

  /** Copies each collected metadata entry onto the attribute its option names,
      duration first and preview last. */
  function WriteFields(f: VideoField, rec: Record, meta: Meta): (r: Record)
    ensures rec.Keys <= r.Keys <= rec.Keys + ModelAttrs(f)
    ensures forall k :: k in rec && k !in ModelAttrs(f) ==> r[k] == rec[k]
    ensures r.Keys <= rec.Keys + WrittenAttrs(f, meta)
    ensures forall k :: k in rec && k !in WrittenAttrs(f, meta) ==> r[k] == rec[k]
    ensures IsSet(f.previewField) && PreviewNameKey in meta ==>
              f.previewField.value in r && r[f.previewField.value] == meta[PreviewNameKey]
    ensures IsSet(f.durationField) && DurationKey in meta ==> f.durationField.value in r
    ensures IsSet(f.widthField) && WidthKey in meta ==> f.widthField.value in r
    ensures IsSet(f.heightField) && HeightKey in meta ==> f.heightField.value in r
  {
    var rec1 := if IsSet(f.durationField) && DurationKey in meta
                then rec[f.durationField.value := Stored(DurationKey, meta[DurationKey])] else rec;
    var rec2 := if IsSet(f.widthField) && WidthKey in meta then rec1[f.widthField.value := meta[WidthKey]] else rec1;
    var rec3 := if IsSet(f.heightField) && HeightKey in meta then rec2[f.heightField.value := meta[HeightKey]] else rec2;
    if IsSet(f.previewField) && PreviewNameKey in meta then rec3[f.previewField.value := meta[PreviewNameKey]] else rec3
  }

  datatype Saved = Saved(record: Record, store: Store)

  /** `VideoFieldFile.save` after the file itself is stored. The probe raising
      propagates; a failed preview extraction is swallowed (`previewOk` false);
      `now` stands for `timezone.now()`. */
  function SaveVideo(f: VideoField, name: string, rec: Record, store: Store,
                     probe: Option<ProbeInfo>, previewOk: bool, now: Value): (r: Result<Saved>)
    ensures !f.processOnSave ==> r == Success(Saved(rec, store))
    ensures f.processOnSave && probe.None? ==> r == Failure(ProbeFailed)
    ensures r.Success? ==> r.value.store.files >= store.files
    ensures r.Success? ==> rec.Keys <= r.value.record.Keys <= rec.Keys + ModelAttrs(f)
    ensures r.Success? ==>
              forall k :: k in rec && k != ProcessedAtAttr && k !in ModelAttrs(f) ==> r.value.record[k] == rec[k]
    ensures r.Success? && f.processOnSave && ProcessedAtAttr in r.value.record ==>
              r.value.record[ProcessedAtAttr] == now
    ensures r.Success? && f.processOnSave && ProcessedAtAttr in rec ==> r.value.record[ProcessedAtAttr] == now
    ensures r.Success? && ProcessedAtAttr !in rec && ProcessedAtAttr !in ModelAttrs(f) ==>
              ProcessedAtAttr !in r.value.record
    ensures r.Success? && f.processOnSave && probe.Some? ==>
              var written := WrittenAttrs(f, ProbedMeta(probe.value, PreviewKey(name, f.sidecar), previewOk));
              && r.value.record.Keys <= rec.Keys + written
              && forall k :: k in rec && k != ProcessedAtAttr && k !in written ==> r.value.record[k] == rec[k]
  {
    if !f.processOnSave then Success(Saved(rec, store))
    else if probe.None? then Failure(ProbeFailed)
    else
      var previewKey := PreviewKey(name, f.sidecar);
      var meta := ProbedMeta(probe.value, previewKey, previewOk);
      var rec4 := WriteFields(f, rec, meta);
      var files1 := if previewOk then store.files + {previewKey} else store.files;
      var store1 :=
        if HasModelFields(f) then Store(files1, store.sidecars)
        else
          var metaKey := MetaKey(name, f.sidecar);
          Store(files1 + {metaKey}, store.sidecars[metaKey := meta]);
      var rec5 := if ProcessedAtAttr in rec4 then rec4[ProcessedAtAttr := now] else rec4;
      Success(Saved(rec5, store1))
  }

  // ---------------------------------------------------------------------------
  // Round trips between `save` and the readers

  /** The JSON sidecar is written exactly when no model field is configured, which
      is exactly when `metadata()` reads it; otherwise the sidecars are untouched. */
  lemma SidecarWrittenIffRead(f: VideoField, name: string, rec: Record, store: Store,
                              info: ProbeInfo, previewOk: bool, now: Value)
    requires f.processOnSave
    ensures var saved := SaveVideo(f, name, rec, store, Some(info), previewOk, now).value;
            var key := MetaKey(name, f.sidecar);
            && (!HasModelFields(f) ==>
                  && key in saved.store.files
                  && saved.store.sidecars == store.sidecars[key := ProbedMeta(info, PreviewKey(name, f.sidecar), previewOk)])
            && (HasModelFields(f) ==> saved.store.sidecars == store.sidecars)
  {
  }

  /** Without model fields, `metadata()` after `save` returns exactly the metadata
      the probe produced. */
  lemma SidecarRoundTrip(f: VideoField, name: string, rec: Record, store: Store,
                         info: ProbeInfo, previewOk: bool, now: Value)
    requires f.processOnSave && !HasModelFields(f)
    ensures SaveVideo(f, name, rec, store, Some(info), previewOk, now).Success?
    ensures var saved := SaveVideo(f, name, rec, store, Some(info), previewOk, now).value;
            Metadata(f, name, saved.record, saved.store)
            == ProbedMeta(info, PreviewKey(name, f.sidecar), previewOk)
  {
  }

  predicate Apart(a: Option<string>, b: Option<string>) {
    !(IsSet(a) && IsSet(b) && a.value == b.value)
  }

  /** The four model-field options name four different attributes, none of them
      the processed-at timestamp. */
  predicate DistinctModelFields(f: VideoField) {
    && Apart(f.durationField, f.widthField) && Apart(f.durationField, f.heightField)
    && Apart(f.durationField, f.previewField) && Apart(f.widthField, f.heightField)
    && Apart(f.widthField, f.previewField) && Apart(f.heightField, f.previewField)
    && Apart(f.durationField, Some(ProcessedAtAttr)) && Apart(f.widthField, Some(ProcessedAtAttr))
    && Apart(f.heightField, Some(ProcessedAtAttr)) && Apart(f.previewField, Some(ProcessedAtAttr))
  }

  /** `metadata()` reads a record whose model fields hold `Stored` values back as
      the metadata that was stored (whole seconds come back unchanged). */
  lemma ReadWrittenFields(f: VideoField, rec: Record, meta: Meta, now: Value, name: string, store: Store)
    requires HasModelFields(f) && DistinctModelFields(f)
    requires DurationKey in meta ==> meta[DurationKey].Int?
    ensures var w := WriteFields(f, rec, meta);
            var r := if ProcessedAtAttr in w then w[ProcessedAtAttr := now] else w;
            var m := Metadata(f, name, r, store);
            && (IsSet(f.durationField) && DurationKey in meta ==> DurationKey in m && m[DurationKey] == meta[DurationKey])
            && (IsSet(f.widthField) && WidthKey in meta ==> m[WidthKey] == meta[WidthKey])
            && (IsSet(f.heightField) && HeightKey in meta ==> HeightKey in m && m[HeightKey] == meta[HeightKey])
            && (IsSet(f.previewField) && PreviewNameKey in meta ==> PreviewNameKey in m && m[PreviewNameKey] == meta[PreviewNameKey])
  {
    if IsSet(f.durationField) && DurationKey in meta {
      DivExact(meta[DurationKey].i);
    }
  }

  /** With model fields, `metadata()` after `save` reports every probed value whose
      option is set: duration through the `timedelta` and back, width, height and
      the preview key as stored. */
  lemma ModelFieldsRoundTrip(f: VideoField, name: string, rec: Record, store: Store,
                             info: ProbeInfo, previewOk: bool, now: Value)
    requires f.processOnSave && HasModelFields(f) && DistinctModelFields(f)
    ensures SaveVideo(f, name, rec, store, Some(info), previewOk, now).Success?
    ensures var saved := SaveVideo(f, name, rec, store, Some(info), previewOk, now).value;
            var m := Metadata(f, name, saved.record, saved.store);
            var probed := ProbedMeta(info, PreviewKey(name, f.sidecar), previewOk);
            && (IsSet(f.durationField) && DurationKey in probed ==> DurationKey in m && m[DurationKey] == probed[DurationKey])
            && (IsSet(f.widthField) && WidthKey in probed ==> m[WidthKey] == probed[WidthKey])
            && (IsSet(f.heightField) && HeightKey in probed ==> HeightKey in m && m[HeightKey] == probed[HeightKey])
            && (IsSet(f.previewField) && PreviewNameKey in probed ==> PreviewNameKey in m && m[PreviewNameKey] == probed[PreviewNameKey])
  {
    var probed := ProbedMeta(info, PreviewKey(name, f.sidecar), previewOk);
    var saved := SaveVideo(f, name, rec, store, Some(info), previewOk, now).value;
    ReadWrittenFields(f, rec, probed, now, name, saved.store);
  }

  /** Whole seconds survive the trip through microseconds. */
  lemma DivExact(s: int)
    ensures WholeSeconds(s * MicrosPerSecond) == s
  {
  }

  /** A `save` whose preview extraction fails leaves the preview attribute as it
      was, so an earlier preview name survives a failed re-processing. */
  lemma FailedPreviewKeepsAttribute(f: VideoField, name: string, rec: Record, store: Store,
                                    info: ProbeInfo, now: Value)
    requires f.processOnSave && IsSet(f.previewField) && f.previewField.value in rec
    requires f.previewField.value != ProcessedAtAttr
    requires Apart(f.previewField, f.durationField) && Apart(f.previewField, f.widthField)
    requires Apart(f.previewField, f.heightField)
    ensures var saved := SaveVideo(f, name, rec, store, Some(info), false, now).value;
            saved.record[f.previewField.value] == rec[f.previewField.value]
  {
  }

  /** After a `save` whose preview was extracted, `preview_url()` returns the URL of
      the preview key, whether it is found through the preview attribute or
      through the storage. */
  lemma PreviewUrlAfterSave(f: VideoField, name: string, rec: Record, store: Store,
                            info: ProbeInfo, now: Value, url: string -> Option<string>)
    requires f.processOnSave
    requires IsSet(f.previewField) ==> f.previewField.value != ProcessedAtAttr
    ensures SaveVideo(f, name, rec, store, Some(info), true, now).Success?
    ensures var saved := SaveVideo(f, name, rec, store, Some(info), true, now).value;
            PreviewUrl(f, name, saved.record, saved.store, url) == url(PreviewKey(name, f.sidecar))
  {
    var key := PreviewKey(name, f.sidecar);
    assert |key| > 0;
  }

  /** `preview_url()` only ever returns a URL it has a reason for: the preview
      attribute is non-empty, or the preview key exists in storage. */
  lemma PreviewUrlNeedsArtifact(f: VideoField, name: string, rec: Record, store: Store,
                                url: string -> Option<string>)
    ensures PreviewUrl(f, name, rec, store, url).Some? ==>
              (IsSet(f.previewField) && Truthy(Attr(rec, f.previewField.value)))
              || PreviewKey(name, f.sidecar) in store.files
  {
  }

  /** `metadata()` in model-field mode never looks at the storage, and in sidecar
      mode never looks at the record. */
  lemma MetadataSourceIsExclusive(f: VideoField, name: string, r1: Record, r2: Record, s1: Store, s2: Store)
    ensures HasModelFields(f) ==> Metadata(f, name, r1, s1) == Metadata(f, name, r1, s2)
    ensures !HasModelFields(f) ==> Metadata(f, name, r1, s1) == Metadata(f, name, r2, s1)
  {
  }
}

=== FILE: hls.dfy ===
/** HLS variant planning and master playlist synthesis: the pure part of
    `transcode_hls_variants`. The encoder itself is an oracle that either
    succeeds or raises for a given ladder position. */
module Hls {
  import opened Common
  import opened Text
  import opened StableSort
  import opened Probe

  /** One ladder entry (`{"height", "v_bitrate", "a_bitrate"}`, bitrates in kbit/s). */
  datatype Rung = Rung(height: int, vBitrate: int, aBitrate: int)

  /** What `transcode_hls_variants` remembers of an encoded rung. */
  datatype VariantInfo = VariantInfo(
    height: int,
    bandwidth: int,
    playlist: string,
    dir: string,
    resolution: string)

  /** A successful run: the variants in ladder order and the master playlist text. */
  datatype HlsOutput = HlsOutput(variants: seq<VariantInfo>, master: string)

  const PlaylistName: string := "index.m3u8"
  const Header: seq<string> := ["#EXTM3U", "#EXT-X-VERSION:3"]
  const StreamInfPrefix: string := "#EXT-X-STREAM-INF:BANDWIDTH="
  const ResolutionTag: string := ",RESOLUTION="

  function RungHeight(r: Rung): int {
    r.height
  }

  function VariantHeight(v: VariantInfo): int {
    v.height
  }

  /** `v{h}`: the directory a rung is encoded into, one path segment with no
      line break. */
  function VariantDir(h: int): (d: string)
    ensures |d| >= 2 && d[0] == 'v'
    ensures '/' !in d && '\n' !in d && '\\' !in d
  {
    "v" + IntToString(h)
  }

  /** `int((h * 16 / 9) // 2 * 2)`, written in integers: the largest even width
      whose ratio to `h` does not exceed 16:9. */
  function ApproxWidth(h: int): (w: int)
    ensures w % 2 == 0
    ensures 9 * w <= 16 * h < 9 * w + 18
    ensures h >= 0 ==> w >= 0
  {
    2 * ((8 * h) / 9)
  }

  /** `"{w}x{h}"` with the approximate 16:9 width, on a single line. */
  function Resolution(h: int): (s: string)
    ensures 'x' in s && '\n' !in s
  {
    IntToString(ApproxWidth(h)) + "x" + IntToString(h)
  }

  /** The variant info of one rung; `hasAudio` is decided once per source. */
  function VariantOf(r: Rung, hasAudio: bool): (v: VariantInfo)
    ensures v.height == r.height
    ensures v.bandwidth == 1000 * r.vBitrate + (if hasAudio then 1000 * r.aBitrate else 0)
    ensures !hasAudio ==> v.bandwidth == 1000 * r.vBitrate
    ensures v.dir == VariantDir(r.height) && v.playlist == PlaylistName && v.resolution == Resolution(r.height)
  {
    VariantInfo(
      r.height,
      (r.vBitrate + (if hasAudio then r.aBitrate else 0)) * 1000,
      PlaylistName,
      VariantDir(r.height),
      Resolution(r.height))
  }

  /** The URI the master lists for a rung is `v{h}/index.m3u8`, the path the
      encoder writes that rung's playlist to. */
  lemma VariantUri(r: Rung, hasAudio: bool)
    ensures UriLine(VariantOf(r, hasAudio)) == "v" + IntToString(r.height) + "/" + PlaylistName
  {
  }

  /** One variant info per rung, in ladder order. */
  function Variants(ladder: seq<Rung>, hasAudio: bool): (vs: seq<VariantInfo>)
    ensures |vs| == |ladder|
    ensures forall i :: 0 <= i < |ladder| ==> vs[i] == VariantOf(ladder[i], hasAudio)
  {
    seq(|ladder|, i requires 0 <= i < |ladder| => VariantOf(ladder[i], hasAudio))
  }

  /** `#EXT-X-STREAM-INF:BANDWIDTH={b},RESOLUTION={r}`: one line whenever the
      resolution is. */
  function StreamInfLine(v: VariantInfo): (l: string)
    ensures StreamInfPrefix <= l
    ensures '\n' !in v.resolution ==> '\n' !in l
  {
    StreamInfPrefix + IntToString(v.bandwidth) + ResolutionTag + v.resolution
  }

  /** `{dir}/{playlist}`: the variant playlist's path relative to the master. */
  function UriLine(v: VariantInfo): (u: string)
    ensures |u| == |v.dir| + 1 + |v.playlist| && u[|v.dir|] == '/'
  {
    v.dir + "/" + v.playlist
  }

  /** The stream-info / URI pairs of `vs`, in the order given. */
  function Entries(vs: seq<VariantInfo>): (lines: seq<string>)
    ensures |lines| == 2 * |vs|
    ensures forall k :: 0 <= k < |vs| ==>
              lines[2 * k] == StreamInfLine(vs[k]) && lines[2 * k + 1] == UriLine(vs[k])
  {
    assert forall k :: 0 <= k < |vs| ==> (2 * k) % 2 == 0 && (2 * k) / 2 == k && (2 * k + 1) / 2 == k;
    seq(2 * |vs|, j requires 0 <= j < 2 * |vs| =>
      if j % 2 == 0 then StreamInfLine(vs[j / 2]) else UriLine(vs[j / 2]))
  }

  /** The lines of the master playlist: the header, then every variant in
      ascending height, stable on ties (Python's `sorted(..., key=height)`). */
  function MasterLines(vs: seq<VariantInfo>): (lines: seq<string>)
    ensures |lines| == 2 + 2 * |vs|
    ensures lines[0] == "#EXTM3U" && lines[1] == "#EXT-X-VERSION:3"
    ensures forall k :: 0 <= k < |vs| ==>
              && lines[2 + 2 * k] == StreamInfLine(SortBy(vs, VariantHeight)[k])
              && lines[3 + 2 * k] == UriLine(SortBy(vs, VariantHeight)[k])
  {
    Header + Entries(SortBy(vs, VariantHeight))
  }

  /** The master playlist text: the lines joined by `"\n"`, no trailing newline.
      Splitting it at its newlines gives back exactly `2 + 2n` lines. */
  function MasterText(vs: seq<VariantInfo>): (text: string)
    ensures (forall i :: 0 <= i < |vs| ==> Printable(vs[i])) ==>
              SplitLines(text) == MasterLines(vs) && |SplitLines(text)| == 2 + 2 * |vs|
  {
    if forall i :: 0 <= i < |vs| ==> Printable(vs[i]) then
      MasterLinesNoNewlines(vs);
      SplitJoinLines(MasterLines(vs));
      JoinLines(MasterLines(vs))
    else
      JoinLines(MasterLines(vs))
  }

  // ---------------------------------------------------------------------------
  // The encode loop

  predicate HasAudio(info: ProbeInfo) {
    FirstOfType(info.streams, AudioType).Some?
  }

  /** The per-rung loop: one encoder run per rung in ladder order; the first
      failing run aborts with that rung's position. */
  method EncodeLadder(ladder: seq<Rung>, hasAudio: bool, encoderOk: nat -> bool)
    returns (r: Result<seq<VariantInfo>>)
    ensures r.Success? <==> forall i :: 0 <= i < |ladder| ==> encoderOk(i)
    ensures r.Failure? ==>
              && r.error.EncoderFailed?
              && r.error.rung < |ladder|
              && !encoderOk(r.error.rung)
              && forall j :: 0 <= j < r.error.rung ==> encoderOk(j)
    ensures r.Success? ==> r.value == Variants(ladder, hasAudio)
  {
    var infos: seq<VariantInfo> := [];
    var i := 0;
    while i < |ladder|
      invariant 0 <= i <= |ladder|
      invariant |infos| == i
      invariant forall k :: 0 <= k < i ==> encoderOk(k)
      invariant infos == Variants(ladder[..i], hasAudio)
    {
      if !encoderOk(i) {
        return Failure(EncoderFailed(i));
      }
      assert ladder[..i + 1] == ladder[..i] + [ladder[i]];
      infos := infos + [VariantOf(ladder[i], hasAudio)];
      i := i + 1;
    }
    assert ladder[..i] == ladder;
    return Success(infos);
  }

  /** `transcode_hls_variants` with the encoder as an oracle: probe once for
      audio, encode every rung, then write the master over the variants.
      `encoderOk(i)` says whether the call for ladder position `i` exits with
      status 0. The first failing call raises and aborts the whole operation
      before any master playlist exists; a failing probe does the same before
      any encoding. */
  method TranscodeHlsVariants(ladder: seq<Rung>, probe: Option<ProbeInfo>, encoderOk: nat -> bool)
    returns (r: Result<HlsOutput>)
    ensures probe.None? ==> r == Failure(ProbeFailed)
    ensures probe.Some? ==> (r.Success? <==> forall i :: 0 <= i < |ladder| ==> encoderOk(i))
    ensures probe.Some? && r.Failure? ==>
              r.error.EncoderFailed? && r.error.rung < |ladder| && !encoderOk(r.error.rung)
    ensures r.Success? ==>
              && probe.Some?
              && r.value.variants == Variants(ladder, HasAudio(probe.value))
              && r.value.master == MasterText(r.value.variants)
  {
    if probe.None? {
      return Failure(ProbeFailed);
    }
    var _, audio := PickVideoAudioStreams(probe.value.streams);
    var variants :- EncodeLadder(ladder, audio.Some?, encoderOk);
    return Success(HlsOutput(variants, MasterText(variants)));
  }

  /** A successful run's master splits into exactly the master lines, two per rung
      after the header. */
  lemma TranscodedMasterLines(ladder: seq<Rung>, hasAudio: bool)
    ensures SplitLines(MasterText(Variants(ladder, hasAudio))) == MasterLines(Variants(ladder, hasAudio))
    ensures |SplitLines(MasterText(Variants(ladder, hasAudio)))| == 2 + 2 * |ladder|
  {
    VariantsPrintable(ladder, hasAudio);
  }

  // ---------------------------------------------------------------------------
  // Naming

  /** Two rungs share a variant directory exactly when their heights are equal,
      so duplicate heights overwrite each other's directory. */
  lemma VariantDirInjective(h1: int, h2: int)
    ensures VariantDir(h1) == VariantDir(h2) <==> h1 == h2
  {
    IntToStringInjective(h1, h2);
    if VariantDir(h1) == VariantDir(h2) {
      assert IntToString(h1) == VariantDir(h1)[1..];
      assert IntToString(h2) == VariantDir(h2)[1..];
    }
  }

  /** Duplicate heights are not merged: both rungs point at the same URI and the
      master still carries one pair of lines per rung. */
  lemma DuplicateHeightsListedTwice(ladder: seq<Rung>, hasAudio: bool, i: nat, j: nat)
    requires i < j < |ladder| && ladder[i].height == ladder[j].height
    ensures UriLine(Variants(ladder, hasAudio)[i]) == UriLine(Variants(ladder, hasAudio)[j])
    ensures |MasterLines(Variants(ladder, hasAudio))| == 2 + 2 * |ladder|
  {
  }

  /** `"{w}x{h}"` can be read back: the part before the `x` is the width and the
      part after it the height. */
  function ParseResolution(s: string): Option<(int, int)> {
    var x := Find(s, 'x');
    if x < 0 || !AllDigits(s[..x]) || !AllDigits(s[x + 1..]) then None
    else Some((ParseNat(s[..x]), ParseNat(s[x + 1..])))
  }

  lemma ResolutionRoundTrip(h: int)
    requires h >= 0
    ensures ParseResolution(Resolution(h)) == Some((ApproxWidth(h), h))
  {
    var w := NatToString(ApproxWidth(h));
    var s := Resolution(h);
    assert s == w + "x" + NatToString(h);
    assert s[|w|] == 'x';
    assert 'x' !in s[..|w|] by {
      assert s[..|w|] == w;
    }
    FindAt(s, 'x', |w|);
    assert s[..|w|] == w;
    assert s[|w| + 1..] == NatToString(h);
    ParseNatToString(ApproxWidth(h));
    ParseNatToString(h);
  }

  /** Reads a stream-info line back: the digits between `BANDWIDTH=` and the
      first `,`, and everything after `,RESOLUTION=`. */
  function ParseStreamInf(l: string): Option<(int, string)> {
    if StreamInfPrefix <= l then ParseStreamInfFields(l[|StreamInfPrefix|..]) else None
  }

  function ParseStreamInfFields(rest: string): Option<(int, string)> {
    var c := Find(rest, ',');
    if c < 0 || !AllDigits(rest[..c]) || !(ResolutionTag <= rest[c..]) then None
    else Some((ParseNat(rest[..c]), rest[c + |ResolutionTag|..]))
  }

  /** A stream-info line carries its variant's bandwidth and resolution. */
  lemma StreamInfRoundTrip(v: VariantInfo)
    requires v.bandwidth >= 0
    ensures ParseStreamInf(StreamInfLine(v)) == Some((v.bandwidth, v.resolution))
  {
    var digits := NatToString(v.bandwidth);
    assert StreamInfLine(v) == StreamInfPrefix + (digits + ResolutionTag + v.resolution);
    ParseStreamInfOf(digits, v.resolution);
    ParseNatToString(v.bandwidth);
  }

  lemma ParseStreamInfOf(digits: string, res: string)
    requires AllDigits(digits)
    ensures ParseStreamInf(StreamInfPrefix + (digits + ResolutionTag + res)) == Some((ParseNat(digits), res))
  {
    var rest := digits + ResolutionTag + res;
    assert (StreamInfPrefix + rest)[|StreamInfPrefix|..] == rest;
    ParseStreamInfFieldsOf(digits, res);
  }

  lemma ParseStreamInfFieldsOf(digits: string, res: string)
    requires AllDigits(digits)
    ensures ParseStreamInfFields(digits + ResolutionTag + res) == Some((ParseNat(digits), res))
  {
    var rest := digits + ResolutionTag + res;
    assert rest[|digits|] == ',';
    assert rest[..|digits|] == digits;
    FindAt(rest, ',', |digits|);
    assert rest[|digits|..] == ResolutionTag + res;
    assert rest[|digits| + |ResolutionTag|..] == res;
  }

  /** Line `2 + 2k` of a ladder's master playlist carries the bandwidth and the
      `"{w}x{h}"` resolution of the k-th variant in height order, and that
      variant is the one of some rung of the ladder. */
  lemma MasterEntryCarriesVariant(ladder: seq<Rung>, hasAudio: bool, k: int)
    requires forall i :: 0 <= i < |ladder| ==>
               ladder[i].height >= 0 && ladder[i].vBitrate >= 0 && ladder[i].aBitrate >= 0
    requires 0 <= k < |ladder|
    ensures var v := SortBy(Variants(ladder, hasAudio), VariantHeight)[k];
            && (exists i :: 0 <= i < |ladder| && v == VariantOf(ladder[i], hasAudio))
            && ParseStreamInf(MasterLines(Variants(ladder, hasAudio))[2 + 2 * k]) == Some((v.bandwidth, v.resolution))
            && ParseResolution(v.resolution) == Some((ApproxWidth(v.height), v.height))
  {
    var vs := Variants(ladder, hasAudio);
    var sorted := SortBy(vs, VariantHeight);
    var v := sorted[k];
    assert v in multiset(sorted);
    assert v in multiset(vs);
    var i :| 0 <= i < |vs| && vs[i] == v;
    assert v == VariantOf(ladder[i], hasAudio);
    StreamInfRoundTrip(v);
    ResolutionRoundTrip(v.height);
  }

  // ---------------------------------------------------------------------------
  // Ordering of the master playlist

  /** Filtering the variants by height is the same as encoding the filtered ladder. */
  lemma {:induction false} VariantsGroups(ladder: seq<Rung>, hasAudio: bool, h: int)
    ensures WithKey(Variants(ladder, hasAudio), VariantHeight, h)
            == Variants(WithKey(ladder, RungHeight, h), hasAudio)
    decreases |ladder|
  {
    if |ladder| > 0 {
      var vs := Variants(ladder, hasAudio);
      var r0 := ladder[0];
      var rest := WithKey(ladder[1..], RungHeight, h);
      var pre: seq<Rung> := if r0.height == h then [r0] else [];
      var preV: seq<VariantInfo> := if r0.height == h then [VariantOf(r0, hasAudio)] else [];
      VariantsCons(ladder, hasAudio);
      assert vs[0] == VariantOf(r0, hasAudio);
      assert WithKey(vs, VariantHeight, h) == preV + WithKey(vs[1..], VariantHeight, h);
      VariantsGroups(ladder[1..], hasAudio, h);
      assert WithKey(ladder, RungHeight, h) == pre + rest;
      VariantsAppend(pre, rest, hasAudio);
      assert Variants(pre, hasAudio) == preV;
    }
  }

  lemma VariantsCons(ladder: seq<Rung>, hasAudio: bool)
    requires |ladder| > 0
    ensures Variants(ladder, hasAudio)[1..] == Variants(ladder[1..], hasAudio)
  {
  }

  lemma VariantsAppend(a: seq<Rung>, b: seq<Rung>, hasAudio: bool)
    ensures Variants(a + b, hasAudio) == Variants(a, hasAudio) + Variants(b, hasAudio)
  {
  }

  /** The master text depends on the ladder only through its height groups: two
      ladders whose rungs of each height come in the same order give the same
      playlist, whatever the order of the groups. */
  lemma MasterDependsOnlyOnGroups(l1: seq<Rung>, l2: seq<Rung>, hasAudio: bool)
    requires forall h :: WithKey(l1, RungHeight, h) == WithKey(l2, RungHeight, h)
    ensures MasterLines(Variants(l1, hasAudio)) == MasterLines(Variants(l2, hasAudio))
  {
    var v1, v2 := Variants(l1, hasAudio), Variants(l2, hasAudio);
    forall h ensures WithKey(v1, VariantHeight, h) == WithKey(v2, VariantHeight, h) {
      VariantsGroups(l1, hasAudio, h);
      VariantsGroups(l2, hasAudio, h);
      assert WithKey(l1, RungHeight, h) == WithKey(l2, RungHeight, h);
    }
    SameGroupsSameSort(v1, v2, VariantHeight);
  }

  /** Shuffling a ladder whose heights are pairwise distinct leaves the master
      playlist byte for byte unchanged. */
  lemma MasterPermutationInvariant(l1: seq<Rung>, l2: seq<Rung>, hasAudio: bool)
    requires multiset(l1) == multiset(l2)
    requires DistinctKeys(l1, RungHeight)
    ensures MasterText(Variants(l1, hasAudio)) == MasterText(Variants(l2, hasAudio))
  {
    forall h ensures WithKey(l1, RungHeight, h) == WithKey(l2, RungHeight, h) {
      PermutationSameGroups(l1, l2, RungHeight, h);
    }
    MasterDependsOnlyOnGroups(l1, l2, hasAudio);
  }

  /** The variants appear in the master in ascending height. */
  lemma MasterAscending(vs: seq<VariantInfo>, i: nat, j: nat)
    requires i < j < |vs|
    ensures SortBy(vs, VariantHeight)[i].height <= SortBy(vs, VariantHeight)[j].height
  {
  }

  // ---------------------------------------------------------------------------
  // No line of the master holds a newline

  lemma NoNewlineInInt(i: int)
    ensures '\n' !in IntToString(i)
  {
    var s := IntToString(i);
    forall k | 0 <= k < |s| ensures s[k] != '\n' {
    }
  }

  lemma VariantsPrintable(ladder: seq<Rung>, hasAudio: bool)
    ensures forall i :: 0 <= i < |ladder| ==> Printable(Variants(ladder, hasAudio)[i])
  {
    forall i | 0 <= i < |ladder|
      ensures '\n' !in Variants(ladder, hasAudio)[i].resolution
      ensures '\n' !in UriLine(Variants(ladder, hasAudio)[i])
    {
      var h := ladder[i].height;
      NoNewlineInInt(h);
      NoNewlineInInt(ApproxWidth(h));
      assert Variants(ladder, hasAudio)[i].resolution == IntToString(ApproxWidth(h)) + "x" + IntToString(h);
      assert UriLine(Variants(ladder, hasAudio)[i]) == "v" + IntToString(h) + "/" + PlaylistName;
    }
  }

  predicate Printable(v: VariantInfo) {
    '\n' !in v.resolution && '\n' !in UriLine(v)
  }

  lemma StreamInfNoNewline(v: VariantInfo)
    requires Printable(v)
    ensures '\n' !in StreamInfLine(v)
  {
    NoNewlineInInt(v.bandwidth);
    assert '\n' !in StreamInfPrefix && '\n' !in ResolutionTag;
  }

  lemma EntriesNoNewlines(vs: seq<VariantInfo>)
    requires forall i :: 0 <= i < |vs| ==> Printable(vs[i])
    ensures NoNewlines(Entries(vs))
  {
    var lines := Entries(vs);
    forall j | 0 <= j < |lines| ensures '\n' !in lines[j] {
      StreamInfNoNewline(vs[j / 2]);
    }
  }

  lemma SortedPrintable(vs: seq<VariantInfo>)
    requires forall i :: 0 <= i < |vs| ==> Printable(vs[i])
    ensures forall k :: 0 <= k < |vs| ==> Printable(SortBy(vs, VariantHeight)[k])
  {
    var sorted := SortBy(vs, VariantHeight);
    forall k | 0 <= k < |sorted| ensures Printable(sorted[k]) {
      assert sorted[k] in multiset(vs);
    }
  }

  lemma MasterLinesNoNewlines(vs: seq<VariantInfo>)
    requires forall i :: 0 <= i < |vs| ==> Printable(vs[i])
    ensures NoNewlines(MasterLines(vs))
  {
    SortedPrintable(vs);
    EntriesNoNewlines(SortBy(vs, VariantHeight));
    assert '\n' !in Header[0] && '\n' !in Header[1];
    NoNewlinesAppend(Header, Entries(SortBy(vs, VariantHeight)));
  }
}

=== FILE: keys.dfy ===
/** The artifact key scheme: every storage key the system derives from the
    name of an uploaded source (sidecar metadata JSON, preview JPEG, HLS output
    root, master playlist, uploaded tree files) and the facts that keep those
    keys apart. */
module ArtifactKeys {
  import opened Text
  import opened PosixPath

  const MetaSuffix: string := "_meta.json"
  const PreviewSuffix: string := "_preview.jpg"
  /** The only layout value that selects nested sidecars; any other string is flat. */
  const NestedLayout: string := "nested"
  /** File name `transcode_hls_variants` gives the master playlist in its output directory. */
  const MasterName: string := "master.m3u8"

  /** The sidecar settings a video field resolves at construction time. */
  datatype SidecarPolicy = SidecarPolicy(layout: string, metaFilename: string, previewFilename: string)

  /** `_base_key`: the source name without its `splitext` extension. */
  function BaseKey(name: string): (base: string)
    ensures base <= name
    ensures base == name <==> !HasExtension(name)
    ensures base != name ==> IsExtensionAt(name, |base|)
  {
    SplitExt(name).0
  }

  /** `_sidecar_dir_key`: the directory nested sidecars live in, which is the
      source name itself exactly when it has no extension. */
  function SidecarDirKey(name: string): (dir: string)
    ensures dir <= name
    ensures dir == name <==> !HasExtension(name)
  {
    BaseKey(name)
  }

  function MetaKey(name: string, policy: SidecarPolicy): (key: string)
    ensures BaseKey(name) < key
    ensures key[|BaseKey(name)|] == if policy.layout == NestedLayout then '/' else '_'
  {
    if policy.layout == NestedLayout then SidecarDirKey(name) + "/" + policy.metaFilename
    else BaseKey(name) + MetaSuffix
  }

  function PreviewKey(name: string, policy: SidecarPolicy): (key: string)
    ensures BaseKey(name) < key
    ensures key[|BaseKey(name)|] == if policy.layout == NestedLayout then '/' else '_'
  {
    if policy.layout == NestedLayout then SidecarDirKey(name) + "/" + policy.previewFilename
    else BaseKey(name) + PreviewSuffix
  }

  /** `_hls_out_base(name, subdir)`: the directory key an output tree is uploaded under. */
  function OutputRoot(name: string, subdir: string): (root: string)
    ensures BaseKey(name) + "/" <= root
    ensures root[|root| - 1] == '/'
  {
    BaseKey(name) + "/" + subdir + "/"
  }

  /** `master_key = base_key + master.name` as `build_hls_for_field_sync` records it. */
  function MasterKey(name: string, subdir: string): (key: string)
    ensures BaseKey(name) + "/" <= key
    ensures |key| > |MasterName| && key[|key| - |MasterName| - 1] == '/'
    ensures key[|key| - |MasterName|..] == MasterName
  {
    OutputRoot(name, subdir) + MasterName
  }

  /** The key `save_tree_to_storage` saves the file at relative path `rel` under. */
  function TreeKey(basePath: string, rel: string): (key: string)
    ensures RStripSlashes(basePath) + "/" <= key
    ensures key[|RStripSlashes(basePath)| + 1..] == ReplaceBackslashes(rel)
  {
    RStripSlashes(basePath) + "/" + ReplaceBackslashes(rel)
  }

  /** A subdir label the output root handles cleanly: non-empty, no trailing slash. */
  predicate WellFormedSubdir(subdir: string) {
    |subdir| > 0 && subdir[|subdir| - 1] != '/'
  }

  // ---------------------------------------------------------------------------
  // The source name and its sidecars

  /** Neither sidecar key is ever the source name itself: at position
      `|BaseKey(name)|` the name holds `.` or has ended, the keys hold `_` or `/`. */
  lemma SidecarsNeverSource(name: string, policy: SidecarPolicy)
    ensures MetaKey(name, policy) != name
    ensures PreviewKey(name, policy) != name
  {
    var b := |BaseKey(name)|;
    if b < |name| {
      assert name[b] == '.';
    }
  }

  /** In the flat layout the two sidecars never share a key. */
  lemma FlatSidecarsDistinct(name: string, policy: SidecarPolicy)
    requires policy.layout != NestedLayout
    ensures MetaKey(name, policy) != PreviewKey(name, policy)
  {
    var b := |BaseKey(name)|;
    assert MetaKey(name, policy)[b + 1] == 'm';
    assert PreviewKey(name, policy)[b + 1] == 'p';
  }

  /** In the nested layout the sidecars share a key exactly when the two configured
      file names are equal. */
  lemma NestedSidecarsDistinct(name: string, policy: SidecarPolicy)
    requires policy.layout == NestedLayout
    ensures MetaKey(name, policy) == PreviewKey(name, policy)
            <==> policy.metaFilename == policy.previewFilename
  {
    var prefix := BaseKey(name) + "/";
    assert MetaKey(name, policy) == prefix + policy.metaFilename;
    assert PreviewKey(name, policy) == prefix + policy.previewFilename;
    if MetaKey(name, policy) == PreviewKey(name, policy) {
      assert policy.metaFilename == MetaKey(name, policy)[|prefix|..];
      assert policy.previewFilename == PreviewKey(name, policy)[|prefix|..];
    }
  }

  /** Switching between the flat and the nested layout never makes a sidecar of one
      coincide with a sidecar of the other. */
  lemma LayoutsNeverCollide(name: string, flat: SidecarPolicy, nested: SidecarPolicy)
    requires flat.layout != NestedLayout && nested.layout == NestedLayout
    ensures MetaKey(name, flat) !in {MetaKey(name, nested), PreviewKey(name, nested)}
    ensures PreviewKey(name, flat) !in {MetaKey(name, nested), PreviewKey(name, nested)}
  {
    var b := |BaseKey(name)|;
    assert MetaKey(name, flat)[b] != MetaKey(name, nested)[b];
    assert MetaKey(name, flat)[b] != PreviewKey(name, nested)[b];
    assert PreviewKey(name, flat)[b] != MetaKey(name, nested)[b];
    assert PreviewKey(name, flat)[b] != PreviewKey(name, nested)[b];
  }

  /** Two sources that differ only in their extension share every derived key:
      `videos/a.mp4` and `videos/a.mov` have the same base key. */
  lemma SiblingExtensionsShareBase()
    ensures BaseKey("videos/a.mp4") == BaseKey("videos/a.mov") == "videos/a"
  {
    assert "videos/a.mp4" == "videos/" + "a" + ".mp4";
    assert "videos/a.mov" == "videos/" + "a" + ".mov";
    BaseKeyOfSimpleName("videos/", "a", ".mp4");
    BaseKeyOfSimpleName("videos/", "a", ".mov");
  }

  // ---------------------------------------------------------------------------
  // Output roots and uploaded trees

  /** For a fixed source name, distinct subdir labels give distinct output roots. */
  lemma OutputRootInjective(name: string, s1: string, s2: string)
    ensures OutputRoot(name, s1) == OutputRoot(name, s2) <==> s1 == s2
  {
    var prefix := BaseKey(name) + "/";
    if OutputRoot(name, s1) == OutputRoot(name, s2) {
      assert OutputRoot(name, s1) == prefix + s1 + "/";
      assert OutputRoot(name, s2) == prefix + s2 + "/";
      assert s1 == OutputRoot(name, s1)[|prefix|..|prefix| + |s1|];
      assert s2 == OutputRoot(name, s2)[|prefix|..|prefix| + |s2|];
    }
  }

  /** Under a well-formed subdir, stripping the root's trailing slash removes exactly one. */
  lemma StripOutputRoot(name: string, subdir: string)
    ensures WellFormedSubdir(subdir) ==>
              RStripSlashes(OutputRoot(name, subdir)) == BaseKey(name) + "/" + subdir
    ensures !WellFormedSubdir(subdir) ==>
              |RStripSlashes(OutputRoot(name, subdir))| < |BaseKey(name) + "/" + subdir|
  {
    var root := OutputRoot(name, subdir);
    var body := BaseKey(name) + "/" + subdir;
    assert root == body + "/";
    assert root[..|root| - 1] == body;
    assert body[|body| - 1] == '/' <==> !WellFormedSubdir(subdir);
  }

  /** The master key recorded on the record is the key the uploaded master playlist
      actually gets exactly when the subdir label is non-empty and does not end in
      `/`; `"hls/"` or `""` record a key nothing was saved under. */
  lemma MasterKeyMatchesUpload(name: string, subdir: string)
    ensures TreeKey(OutputRoot(name, subdir), MasterName) == MasterKey(name, subdir)
            <==> WellFormedSubdir(subdir)
  {
    var root := OutputRoot(name, subdir);
    var stripped := RStripSlashes(root);
    StripOutputRoot(name, subdir);
    assert ReplaceBackslashes(MasterName) == MasterName;
    var uploaded := stripped + "/" + MasterName;
    var recorded := root + MasterName;
    if WellFormedSubdir(subdir) {
      assert stripped + "/" == root;
    } else {
      assert |uploaded| < |recorded|;
    }
  }

  /** No file of an output tree (well-formed subdir) overwrites a sidecar: flat keys
      differ from tree keys right after the base key, nested ones because a sidecar
      file name without `/` cannot span the subdir and the relative path. */
  lemma TreeNeverOverwritesSidecar(name: string, subdir: string, policy: SidecarPolicy, rel: string)
    requires WellFormedSubdir(subdir)
    requires '/' !in policy.metaFilename && '/' !in policy.previewFilename
    ensures TreeKey(OutputRoot(name, subdir), rel) != MetaKey(name, policy)
    ensures TreeKey(OutputRoot(name, subdir), rel) != PreviewKey(name, policy)
  {
    StripOutputRoot(name, subdir);
    var base := BaseKey(name);
    var key := TreeKey(OutputRoot(name, subdir), rel);
    assert key == base + "/" + subdir + "/" + ReplaceBackslashes(rel);
    var slash := |base| + 1 + |subdir|;
    assert key[slash] == '/';
  }

  /** Trees uploaded under two different slash-free subdir labels of the same source
      never share a key, so the `hls`, `dash` and `adaptive` outputs stay apart. */
  lemma DistinctSubdirTreesDisjoint(name: string, s1: string, s2: string, rel1: string, rel2: string)
    requires WellFormedSubdir(s1) && WellFormedSubdir(s2) && s1 != s2
    requires '/' !in s1 && '/' !in s2
    ensures TreeKey(OutputRoot(name, s1), rel1) != TreeKey(OutputRoot(name, s2), rel2)
  {
    StripOutputRoot(name, s1);
    StripOutputRoot(name, s2);
    var prefix := BaseKey(name) + "/";
    var k1 := TreeKey(OutputRoot(name, s1), rel1);
    var k2 := TreeKey(OutputRoot(name, s2), rel2);
    assert k1 == prefix + s1 + "/" + ReplaceBackslashes(rel1);
    assert k2 == prefix + s2 + "/" + ReplaceBackslashes(rel2);
    var p := |prefix|;
    if |s1| < |s2| {
      assert k1[p + |s1|] != k2[p + |s1|];
    } else if |s2| < |s1| {
      assert k1[p + |s2|] != k2[p + |s2|];
    } else {
      var i :| 0 <= i < |s1| && s1[i] != s2[i];
      assert k1[p + i] != k2[p + i];
    }
  }

  /** Within one upload, two files whose relative paths differ after the backslash
      rewrite get different keys: the relative path can be read back from the key. */
  lemma TreeKeyInjective(basePath: string, rel1: string, rel2: string)
    ensures TreeKey(basePath, rel1) == TreeKey(basePath, rel2)
            <==> ReplaceBackslashes(rel1) == ReplaceBackslashes(rel2)
  {
  }

  // ---------------------------------------------------------------------------
  // Worked examples

  /** `dir + stem + ext` with a slash-free stem that has a non-dot first character
      and an extension `.xyz` splits at the extension. */
  lemma BaseKeyOfSimpleName(dir: string, stem: string, ext: string)
    requires |stem| > 0 && stem[0] != '.' && '/' !in stem && '.' !in stem
    requires |ext| > 0 && ext[0] == '.' && '/' !in ext && '.' !in ext[1..]
    ensures BaseKey(dir + stem + ext) == dir + stem
  {
    var p := dir + stem + ext;
    var d := |dir| + |stem|;
    assert p[d] == '.';
    assert forall j :: d < j < |p| ==> p[j] == ext[1..][j - d - 1];
    assert p[|dir|] != '.' && NoSlashBetween(p, |dir|, d);
    assert IsExtensionAt(p, d);
    ExtensionUnique(p, d, |BaseKey(p)|);
  }

  lemma ExtensionUnique(p: string, d1: int, d2: int)
    requires IsExtensionAt(p, d1) && IsExtensionAt(p, d2)
    ensures d1 == d2
  {
  }

  /** The root for `path/to/video.mp4` and `hls` is `path/to/video/hls/`. */
  lemma OutputRootExample()
    ensures OutputRoot("path/to/video.mp4", "hls") == "path/to/video/hls/"
  {
    assert "path/to/video.mp4" == "path/to/" + "video" + ".mp4";
    BaseKeyOfSimpleName("path/to/", "video", ".mp4");
  }

  /** The flat layout appends the fixed suffixes to the base key:
      `videos/a.mp4` gives `videos/a_meta.json` and `videos/a_preview.jpg`. */
  lemma FlatSidecarExample(metaFilename: string, previewFilename: string)
    ensures var policy := SidecarPolicy("flat", metaFilename, previewFilename);
            && MetaKey("videos/a.mp4", policy) == "videos/a_meta.json"
            && PreviewKey("videos/a.mp4", policy) == "videos/a_preview.jpg"
  {
    ExampleBase();
    assert "videos/a" + MetaSuffix == "videos/a_meta.json";
    assert "videos/a" + PreviewSuffix == "videos/a_preview.jpg";
  }

  /** The nested layout puts the configured file names in a directory named
      after the base key: `videos/a/meta.json` and `videos/a/preview.jpg`. */
  lemma NestedSidecarExample()
    ensures var policy := SidecarPolicy(NestedLayout, "meta.json", "preview.jpg");
            && MetaKey("videos/a.mp4", policy) == "videos/a/meta.json"
            && PreviewKey("videos/a.mp4", policy) == "videos/a/preview.jpg"
  {
    ExampleBase();
    assert SidecarDirKey("videos/a.mp4") == "videos/a";
    assert "videos/a" + "/" + "meta.json" == "videos/a/meta.json";
    assert "videos/a" + "/" + "preview.jpg" == "videos/a/preview.jpg";
  }

  lemma ExampleBase()
    ensures BaseKey("videos/a.mp4") == "videos/a"
  {
    assert "videos/a.mp4" == "videos/" + "a" + ".mp4";
    BaseKeyOfSimpleName("videos/", "a", ".mp4");
  }

  /** A name without any dot is its own base key: `video_without_ext` with `dash`
      gives `video_without_ext/dash/`. */
  lemma OutputRootNoExtension()
    ensures OutputRoot("video_without_ext", "dash") == "video_without_ext/dash/"
  {
    var name := "video_without_ext";
    assert '.' !in name;
    NoDotNoExtension(name);
    assert OutputRoot(name, "dash") == name + "/" + "dash" + "/";
  }

  lemma NoDotNoExtension(p: string)
    requires '.' !in p
    ensures BaseKey(p) == p
  {
  }

  /** Leading dots of the last component never start an extension, whatever
      directory part comes before it. */
  lemma DotOnlyPrefixHasNoExtension(dir: string, dots: string, rest: string)
    requires dir == [] || dir[|dir| - 1] == '/'
    requires forall j :: 0 <= j < |dots| ==> dots[j] == '.'
    requires '.' !in rest && '/' !in rest
    ensures BaseKey(dir + dots + rest) == dir + dots + rest
  {
    forall d | 0 <= d < |dir + dots + rest|
      ensures !IsExtensionAt(dir + dots + rest, d)
    {
      NoExtensionAt(dir, dots, rest, d);
    }
  }

  /** A dot of such a name only has dots or a `/` between it and the start of
      its component. */
  lemma NoExtensionAt(dir: string, dots: string, rest: string, d: int)
    requires dir == [] || dir[|dir| - 1] == '/'
    requires forall j :: 0 <= j < |dots| ==> dots[j] == '.'
    requires '.' !in rest && '/' !in rest
    requires 0 <= d < |dir + dots + rest|
    ensures !IsExtensionAt(dir + dots + rest, d)
  {
    var p := dir + dots + rest;
    if p[d] == '.' && (forall j :: d < j < |p| ==> p[j] != '.' && p[j] != '/') {
      forall k | 0 <= k < d && p[k] != '.'
        ensures !NoSlashBetween(p, k, d)
      {
        assert p[|dir| - 1] == '/';
      }
    }
  }
}

=== FILE: posixpath.dfy ===
/** POSIX `os.path.splitext`, the function every storage key of the system is
    derived from.

    The extension is the suffix that starts at the last `.` of the name,
    provided that dot lies in the last path component (after the last `/`)
    and some character other than `.` precedes it within that component.
    So `a.b.c` splits as `a.b` + `.c`, while `.bashrc`, `..mp4` and `dir.d/file`
    have no extension at all. */
module PosixPath {
  import opened Text

  /** `d` is where the extension of `p` starts: the last dot, in the last path
      component, with a non-dot character of that component before it. */
  ghost predicate IsExtensionAt(p: string, d: int) {
    && 0 <= d < |p|
    && p[d] == '.'
    && (forall j :: d < j < |p| ==> p[j] != '.' && p[j] != '/')
    && (exists k :: 0 <= k < d && p[k] != '.' && NoSlashBetween(p, k, d))
  }

  ghost predicate NoSlashBetween(p: string, lo: int, hi: int)
    requires 0 <= lo <= hi <= |p|
  {
    forall j :: lo <= j < hi ==> p[j] != '/'
  }

  ghost predicate HasExtension(p: string) {
    exists d :: IsExtensionAt(p, d)
  }

  /** Some character of `p[lo..hi]` is not a dot. */
  predicate SomeNonDot(p: string, lo: int, hi: int)
    requires 0 <= lo <= hi <= |p|
  {
    exists k :: lo <= k < hi && p[k] != '.'
  }

  /** `os.path.splitext(p)` for the POSIX flavour of `os.path`:
      the pair `(root, ext)` with `root + ext == p`. */
  function SplitExt(p: string): (r: (string, string))
    ensures r.0 + r.1 == p
    ensures r.1 != [] <==> HasExtension(p)
    ensures r.1 != [] ==> IsExtensionAt(p, |r.0|)
  {
    var sep := RFind(p, '/');
    var dot := RFind(p, '.');
    if sep < dot && SomeNonDot(p, sep + 1, dot) then
      SplitExtFound(p, sep, dot);
      (p[..dot], p[dot..])
    else
      SplitExtNone(p, sep, dot);
      (p, [])
  }

  lemma SplitExtFound(p: string, sep: int, dot: int)
    requires sep == RFind(p, '/') && dot == RFind(p, '.')
    requires sep < dot && SomeNonDot(p, sep + 1, dot)
    ensures IsExtensionAt(p, dot)
  {
    var k :| sep + 1 <= k < dot && p[k] != '.';
    assert NoSlashBetween(p, k, dot);
  }

  lemma SplitExtNone(p: string, sep: int, dot: int)
    requires sep == RFind(p, '/') && dot == RFind(p, '.')
    requires !(sep < dot && SomeNonDot(p, sep + 1, dot))
    ensures !HasExtension(p)
  {
  }
}

=== FILE: probe.dfy ===
/** The part of the prober's JSON output the system reads, and the
    first-of-each-type stream selection (`pick_video_audio_streams`). */
module Probe {
  import opened Common

  const VideoType: string := "video"
  const AudioType: string := "audio"

  /** One entry of the `streams` array; absent JSON keys are `None`. */
  datatype Stream = Stream(codecType: Option<string>, width: Option<int>, height: Option<int>)

  /** `ffprobe -show_format -show_streams` output: `format.duration` already cut to
      whole seconds, and `streams` (an absent array reads as empty). */
  datatype ProbeInfo = ProbeInfo(durationSeconds: Option<int>, streams: seq<Stream>)

  predicate HasType(s: Stream, t: string) {
    s.codecType == Some(t)
  }

  /** Position of the first stream of type `t`, if any. */
  function FirstIndexOfType(streams: seq<Stream>, t: string): (r: Option<nat>)
    ensures r.None? <==> forall i :: 0 <= i < |streams| ==> !HasType(streams[i], t)
    ensures r.Some? ==> r.value < |streams| && HasType(streams[r.value], t)
    ensures r.Some? ==> forall j :: 0 <= j < r.value ==> !HasType(streams[j], t)
    decreases |streams|
  {
    if |streams| == 0 then None
    else if HasType(streams[0], t) then Some(0)
    else
      match FirstIndexOfType(streams[1..], t)
      case None => None
      case Some(k) => Some(k + 1)
  }

  /** The stream `pick_video_audio_streams` returns for type `t`. */
  function FirstOfType(streams: seq<Stream>, t: string): Option<Stream> {
    match FirstIndexOfType(streams, t)
    case None => None
    case Some(i) => Some(streams[i])
  }

  /** One pass over the streams keeping the first video and the first audio
      stream; a type that never occurs yields `None`, not an error. */
  method PickVideoAudioStreams(streams: seq<Stream>) returns (v: Option<Stream>, a: Option<Stream>)
    ensures v == FirstOfType(streams, VideoType)
    ensures a == FirstOfType(streams, AudioType)
    ensures v.None? <==> forall i :: 0 <= i < |streams| ==> !HasType(streams[i], VideoType)
    ensures a.None? <==> forall i :: 0 <= i < |streams| ==> !HasType(streams[i], AudioType)
  {
    v, a := None, None;
    var i := 0;
    while i < |streams|
      invariant 0 <= i <= |streams|
      invariant v == FirstOfType(streams[..i], VideoType)
      invariant a == FirstOfType(streams[..i], AudioType)
    {
      var s := streams[i];
      PrefixFirst(streams, i + 1, VideoType);
      PrefixFirst(streams, i + 1, AudioType);
      if HasType(s, VideoType) && v.None? {
        v := Some(s);
      }
      if HasType(s, AudioType) && a.None? {
        a := Some(s);
      }
      i := i + 1;
    }
    assert streams[..i] == streams;
  }

  /** Extending a prefix by one stream changes the first stream of a type only
      when none was found yet and the new stream has that type. */
  lemma PrefixFirst(streams: seq<Stream>, n: nat, t: string)
    requires 0 < n <= |streams|
    ensures FirstOfType(streams[..n], t)
            == if FirstOfType(streams[..n - 1], t).None? && HasType(streams[n - 1], t)
               then Some(streams[n - 1])
               else FirstOfType(streams[..n - 1], t)
  {
    var p, q := streams[..n - 1], streams[..n];
    assert forall j :: 0 <= j < n - 1 ==> q[j] == p[j];
    match FirstIndexOfType(p, t)
    case Some(k) =>
      assert FirstIndexOfType(q, t) == Some(k) by {
        FirstIndexUnique(q, t, k);
      }
    case None =>
      if HasType(streams[n - 1], t) {
        FirstIndexUnique(q, t, n - 1);
      }
  }

  lemma FirstIndexUnique(streams: seq<Stream>, t: string, k: nat)
    requires k < |streams| && HasType(streams[k], t)
    requires forall j :: 0 <= j < k ==> !HasType(streams[j], t)
    ensures FirstIndexOfType(streams, t) == Some(k)
  {
  }

  /** The worked example: two video and two audio streams interleaved, the first
      of each wins. */
  lemma PickExample(v1: Stream, a1: Stream, v2: Stream, a2: Stream)
    requires HasType(v1, VideoType) && HasType(v2, VideoType)
    requires HasType(a1, AudioType) && HasType(a2, AudioType)
    ensures FirstOfType([v1, a1, v2, a2], VideoType) == Some(v1)
    ensures FirstOfType([v1, a1, v2, a2], AudioType) == Some(a1)
  {
    FirstIndexUnique([v1, a1, v2, a2], VideoType, 0);
    FirstIndexUnique([v1, a1, v2, a2], AudioType, 1);
  }
}

=== FILE: stablesort.dfy ===
/** Python's `sorted(xs, key=k)` for an integer key: an ascending, STABLE sort
    (elements with equal keys keep their input order).

    `SortBy` is insertion sort; its contract is the specification of a stable
    sort (ascending, a permutation, and for every key value the subsequence of
    elements with that key is unchanged), and `StableSortUnique` shows that
    this specification determines the output completely. */
module StableSort {

  ghost predicate SortedBy<T>(s: seq<T>, key: T -> int) {
    forall i, j :: 0 <= i < j < |s| ==> key(s[i]) <= key(s[j])
  }

  /** No two positions of `s` carry the same key. */
  ghost predicate DistinctKeys<T>(s: seq<T>, key: T -> int) {
    forall i, j :: 0 <= i < j < |s| ==> key(s[i]) != key(s[j])
  }

  /** The elements of `s` whose key is `h`, in their order in `s`. */
  function WithKey<T>(s: seq<T>, key: T -> int, h: int): seq<T>
    decreases |s|
  {
    if |s| == 0 then []
    else (if key(s[0]) == h then [s[0]] else []) + WithKey(s[1..], key, h)
  }

  /** Place `x` in front of the first element whose key is not smaller. */
  function Insert<T>(x: T, s: seq<T>, key: T -> int): seq<T>
    decreases |s|
  {
    if |s| == 0 || key(x) <= key(s[0]) then [x] + s
    else [s[0]] + Insert(x, s[1..], key)
  }

  function SortBy<T>(s: seq<T>, key: T -> int): (r: seq<T>)
    ensures |r| == |s|
    ensures SortedBy(r, key)
    ensures multiset(r) == multiset(s)
    ensures forall h :: WithKey(r, key, h) == WithKey(s, key, h)
    decreases |s|
  {
    if |s| == 0 then []
    else
      var t := SortBy(s[1..], key);
      SortStep(s, t, key);
      Insert(s[0], t, key)
  }

  /** One insertion step keeps the stable-sort specification. */
  lemma SortStep<T>(s: seq<T>, t: seq<T>, key: T -> int)
    requires |s| > 0
    requires |t| == |s| - 1 && SortedBy(t, key) && multiset(t) == multiset(s[1..])
    requires forall h :: WithKey(t, key, h) == WithKey(s[1..], key, h)
    ensures |Insert(s[0], t, key)| == |s|
    ensures SortedBy(Insert(s[0], t, key), key)
    ensures multiset(Insert(s[0], t, key)) == multiset(s)
    ensures forall h :: WithKey(Insert(s[0], t, key), key, h) == WithKey(s, key, h)
  {
    InsertSorted(s[0], t, key);
    InsertMultiset(s[0], t, key);
    InsertStable(s[0], t, key);
    assert s == [s[0]] + s[1..];
    forall h ensures WithKey(Insert(s[0], t, key), key, h) == WithKey(s, key, h) {
      assert WithKey(t, key, h) == WithKey(s[1..], key, h);
    }
  }

  // ---------------------------------------------------------------------------
  // Insertion

  lemma {:induction false} InsertSorted<T>(x: T, s: seq<T>, key: T -> int)
    requires SortedBy(s, key)
    ensures SortedBy(Insert(x, s, key), key)
    ensures |Insert(x, s, key)| == |s| + 1
    ensures Insert(x, s, key)[0] == x || Insert(x, s, key)[0] == s[0]
    decreases |s|
  {
    if |s| > 0 && key(x) > key(s[0]) {
      InsertSorted(x, s[1..], key);
      var r := Insert(x, s, key);
      var tail := Insert(x, s[1..], key);
      assert r == [s[0]] + tail;
      forall i, j | 0 <= i < j < |r|
        ensures key(r[i]) <= key(r[j])
      {
        if i == 0 {
          assert r[j] == tail[j - 1];
          assert tail[j - 1] == x || tail[j - 1] in s[1..] by {
            InsertElements(x, s[1..], key);
          }
        }
      }
    }
  }

  lemma {:induction false} InsertElements<T>(x: T, s: seq<T>, key: T -> int)
    ensures multiset(Insert(x, s, key)) == multiset(s) + multiset{x}
    ensures forall y :: y in Insert(x, s, key) ==> y == x || y in s
    decreases |s|
  {
    if |s| > 0 && key(x) > key(s[0]) {
      InsertElements(x, s[1..], key);
      assert s == [s[0]] + s[1..];
    }
  }

  lemma InsertMultiset<T>(x: T, s: seq<T>, key: T -> int)
    ensures multiset(Insert(x, s, key)) == multiset(s) + multiset{x}
  {
    InsertElements(x, s, key);
  }

  /** Inserting `x` adds it at the front of its own key group and leaves every
      other group alone. */
  lemma {:induction false} InsertStable<T>(x: T, s: seq<T>, key: T -> int)
    ensures forall h :: WithKey(Insert(x, s, key), key, h)
                        == (if key(x) == h then [x] else []) + WithKey(s, key, h)
    decreases |s|
  {
    if |s| == 0 || key(x) <= key(s[0]) {
      forall h ensures WithKey(Insert(x, s, key), key, h)
                       == (if key(x) == h then [x] else []) + WithKey(s, key, h)
      {
        assert ([x] + s)[1..] == s;
      }
    } else {
      InsertStable(x, s[1..], key);
      forall h ensures WithKey(Insert(x, s, key), key, h)
                       == (if key(x) == h then [x] else []) + WithKey(s, key, h)
      {
        var r := Insert(x, s, key);
        assert r[1..] == Insert(x, s[1..], key);
      }
    }
  }

  // ---------------------------------------------------------------------------
  // Key groups

  lemma {:induction false} WithKeyMember<T>(s: seq<T>, key: T -> int, h: int)
    ensures WithKey(s, key, h) == [] <==> forall i :: 0 <= i < |s| ==> key(s[i]) != h
    decreases |s|
  {
    if |s| > 0 {
      WithKeyMember(s[1..], key, h);
      assert forall i :: 1 <= i < |s| ==> s[i] == s[1..][i - 1];
    }
  }

  /** In a sorted sequence, every key that occurs is at least the key of the head. */
  lemma WithKeyAboveHead<T>(s: seq<T>, key: T -> int, h: int)
    requires SortedBy(s, key)
    requires WithKey(s, key, h) != []
    ensures |s| > 0 && key(s[0]) <= h
  {
    WithKeyMember(s, key, h);
  }

  lemma {:induction false} WithKeyCount<T>(s: seq<T>, key: T -> int, h: int, x: T)
    ensures multiset(WithKey(s, key, h))[x] == if key(x) == h then multiset(s)[x] else 0
    decreases |s|
  {
    if |s| > 0 {
      WithKeyCount(s[1..], key, h, x);
      assert s == [s[0]] + s[1..];
    }
  }

  lemma {:induction false} WithKeyAtMostOne<T>(s: seq<T>, key: T -> int, h: int)
    requires DistinctKeys(s, key)
    ensures |WithKey(s, key, h)| <= 1
    decreases |s|
  {
    if |s| > 0 {
      var tail := s[1..];
      assert DistinctKeys(tail, key) by {
        forall i, j | 0 <= i < j < |tail| ensures key(tail[i]) != key(tail[j]) {
          assert tail[i] == s[i + 1] && tail[j] == s[j + 1];
        }
      }
      WithKeyAtMostOne(tail, key, h);
      if key(s[0]) == h {
        WithKeyMember(tail, key, h);
        assert forall i :: 0 <= i < |tail| ==> tail[i] == s[i + 1];
      }
    }
  }

  // ---------------------------------------------------------------------------
  // What a stable sort is

  lemma HeadHasGroup<T>(s: seq<T>, key: T -> int)
    ensures |s| > 0 ==> WithKey(s, key, key(s[0])) != []
  {
  }

  /** Two ascending sequences with the same key groups are the same sequence. */
  lemma {:induction false} SortedGroupsDetermine<T>(a: seq<T>, b: seq<T>, key: T -> int)
    requires SortedBy(a, key) && SortedBy(b, key)
    requires forall h :: WithKey(a, key, h) == WithKey(b, key, h)
    ensures a == b
    decreases |a| + |b|
  {
    HeadHasGroup(a, key);
    HeadHasGroup(b, key);
    if |a| > 0 && |b| > 0 {
      var ha, hb := key(a[0]), key(b[0]);
      assert WithKey(a, key, ha) == WithKey(b, key, ha);
      assert WithKey(a, key, hb) == WithKey(b, key, hb);
      WithKeyAboveHead(b, key, ha);
      WithKeyAboveHead(a, key, hb);
      assert WithKey(a, key, ha)[0] == a[0];
      assert WithKey(b, key, ha)[0] == b[0];
      forall h ensures WithKey(a[1..], key, h) == WithKey(b[1..], key, h) {
        var pre: seq<T> := if key(a[0]) == h then [a[0]] else [];
        assert WithKey(a, key, h) == pre + WithKey(a[1..], key, h);
        assert WithKey(b, key, h) == pre + WithKey(b[1..], key, h);
        assert WithKey(a[1..], key, h) == WithKey(a, key, h)[|pre|..];
        assert WithKey(b[1..], key, h) == WithKey(b, key, h)[|pre|..];
      }
      SortedGroupsDetermine(a[1..], b[1..], key);
      assert a == [a[0]] + a[1..] && b == [b[0]] + b[1..];
    }
  }

  /** `SortBy(s)` is the ONLY ascending arrangement of `s` that keeps every key
      group in input order: its contract characterises `sorted(s, key=k)`. */
  lemma StableSortUnique<T>(s: seq<T>, r: seq<T>, key: T -> int)
    requires SortedBy(r, key)
    requires forall h :: WithKey(r, key, h) == WithKey(s, key, h)
    ensures r == SortBy(s, key)
  {
    SortedGroupsDetermine(r, SortBy(s, key), key);
  }

  /** Two inputs sort to the same output exactly when they have the same key groups. */
  lemma SortEqualIffSameGroups<T>(a: seq<T>, b: seq<T>, key: T -> int)
    ensures SortBy(a, key) == SortBy(b, key)
            <==> forall h :: WithKey(a, key, h) == WithKey(b, key, h)
  {
    if h :| WithKey(a, key, h) != WithKey(b, key, h) {
      SortedGroupsOf(a, key, h);
      SortedGroupsOf(b, key, h);
    } else {
      SameGroupsSameSort(a, b, key);
    }
  }

  lemma SortedGroupsOf<T>(s: seq<T>, key: T -> int, h: int)
    ensures WithKey(SortBy(s, key), key, h) == WithKey(s, key, h)
  {
  }

  lemma SameGroupsSameSort<T>(a: seq<T>, b: seq<T>, key: T -> int)
    requires forall h :: WithKey(a, key, h) == WithKey(b, key, h)
    ensures SortBy(a, key) == SortBy(b, key)
  {
    var sa, sb := SortBy(a, key), SortBy(b, key);
    forall h ensures WithKey(sa, key, h) == WithKey(sb, key, h) {
      assert WithKey(a, key, h) == WithKey(b, key, h);
    }
    SortedGroupsDetermine(sa, sb, key);
  }

  /** A permutation of an input whose keys are pairwise distinct has the same key
      groups (each of at most one element). */
  lemma PermutationSameGroups<T>(a: seq<T>, b: seq<T>, key: T -> int, h: int)
    requires multiset(a) == multiset(b)
    requires DistinctKeys(a, key)
    ensures WithKey(a, key, h) == WithKey(b, key, h)
  {
    WithKeyAtMostOne(a, key, h);
    if WithKey(a, key, h) == [] {
      EmptyGroupPreserved(a, b, key, h);
    } else {
      SingletonGroupPreserved(a, b, key, h);
    }
  }

  lemma EmptyGroupPreserved<T>(a: seq<T>, b: seq<T>, key: T -> int, h: int)
    requires multiset(a) == multiset(b)
    requires WithKey(a, key, h) == []
    ensures WithKey(b, key, h) == []
  {
    WithKeyMember(a, key, h);
    forall i | 0 <= i < |b| ensures key(b[i]) != h {
      assert b[i] in multiset(a);
    }
    WithKeyMember(b, key, h);
  }

  lemma SingletonGroupPreserved<T>(a: seq<T>, b: seq<T>, key: T -> int, h: int)
    requires multiset(a) == multiset(b)
    requires |WithKey(a, key, h)| == 1
    ensures WithKey(b, key, h) == WithKey(a, key, h)
  {
    var ga, gb := WithKey(a, key, h), WithKey(b, key, h);
    var x := ga[0];
    assert ga == [x];
    WithKeyCount(a, key, h, x);
    WithKeyCount(b, key, h, x);
    assert multiset(gb)[x] == 1;
    forall i | 0 <= i < |gb| ensures gb[i] == x {
      var y := gb[i];
      WithKeyCount(b, key, h, y);
      WithKeyCount(a, key, h, y);
      assert y in multiset(ga);
    }
    AllEqualCount(gb, x);
  }

  lemma {:induction false} AllEqualCount<T>(s: seq<T>, x: T)
    requires forall i :: 0 <= i < |s| ==> s[i] == x
    ensures multiset(s)[x] == |s|
    decreases |s|
  {
    if |s| > 0 {
      assert s == [s[0]] + s[1..];
      assert forall i :: 0 <= i < |s| - 1 ==> s[1..][i] == s[i + 1];
      AllEqualCount(s[1..], x);
    }
  }

  /** Sorting by a key with pairwise distinct values forgets the input order. */
  lemma SortPermutationInvariant<T>(a: seq<T>, b: seq<T>, key: T -> int)
    requires multiset(a) == multiset(b)
    requires DistinctKeys(a, key)
    ensures SortBy(a, key) == SortBy(b, key)
  {
    forall h ensures WithKey(a, key, h) == WithKey(b, key, h) {
      PermutationSameGroups(a, b, key, h);
    }
    SameGroupsSameSort(a, b, key);
  }
}

=== FILE: tasks.dfy ===
/** The HLS build task: transcode, upload the output tree under the field's
    output root, and record the master playlist key on the record. */
module Tasks {
  import opened Common
  import opened Text
  import opened ArtifactKeys
  import opened Probe
  import opened Hls
  import opened Fields

  const BuiltAtAttr: string := "hls_built_at"

  /** `save_tree_to_storage`: one key per file of the local tree, in the order the
      walk visits them; `walk` holds each file's path relative to the tree root. */
  method SaveTreeToStorage(walk: seq<string>, basePath: string) returns (saved: seq<string>)
    ensures |saved| == |walk|
    ensures forall i :: 0 <= i < |walk| ==> saved[i] == TreeKey(basePath, walk[i])
    ensures forall i :: 0 <= i < |walk| ==>
              RStripSlashes(basePath) + "/" <= saved[i]
              && saved[i][|RStripSlashes(basePath)| + 1..] == ReplaceBackslashes(walk[i])
  {
    saved := [];
    var i := 0;
    while i < |walk|
      invariant 0 <= i <= |walk|
      invariant |saved| == i
      invariant forall k :: 0 <= k < i ==> saved[k] == TreeKey(basePath, walk[k])
    {
      var rel := ReplaceBackslashes(walk[i]);
      var key := RStripSlashes(basePath) + "/" + rel;
      saved := saved + [key];
      i := i + 1;
    }
  }

  /** How the record is persisted: only the listed attributes, or all of them. */
  datatype SaveMode = UpdateFields(fields: seq<string>) | FullSave

  datatype WriteBackResult = WriteBackResult(record: Record, mode: SaveMode)

  /** The end of `build_hls_for_field_sync`: the playlist attribute (when
      configured) gets the master key, `hls_built_at` (when the record has it)
      gets `now`, and the save names exactly those attributes, or saves the
      whole record when there is no playlist attribute. */
  function WriteBack(rec: Record, playlistField: Option<string>, masterKey: string, now: Value)
    : (r: WriteBackResult)
    ensures !IsSet(playlistField) ==> r.mode == FullSave
    ensures IsSet(playlistField) ==>
              r.mode.UpdateFields? && |r.mode.fields| >= 1 && r.mode.fields[0] == playlistField.value
    ensures IsSet(playlistField) ==>
              |r.mode.fields| <= 2
              && forall k :: k in r.mode.fields ==> k == playlistField.value || k == BuiltAtAttr
    ensures r.record.Keys == rec.Keys + (if IsSet(playlistField) then {playlistField.value} else {})
    ensures BuiltAtAttr in r.record ==> r.record[BuiltAtAttr] == now
  {
    var rec1 := if IsSet(playlistField) then rec[playlistField.value := Str(masterKey)] else rec;
    var rec2 := if BuiltAtAttr in rec1 then rec1[BuiltAtAttr := now] else rec1;
    var mode :=
      if IsSet(playlistField) then
        UpdateFields([playlistField.value] + (if BuiltAtAttr in rec1 then [BuiltAtAttr] else []))
      else FullSave;
    WriteBackResult(rec2, mode)
  }

  /** Every attribute the write-back changes is one the save persists, and it
      changes nothing but the playlist and timestamp attributes. */
  lemma WriteBackPersistsChanges(rec: Record, playlistField: Option<string>, masterKey: string, now: Value)
    ensures var r := WriteBack(rec, playlistField, masterKey, now);
            forall k :: k in r.record && (k !in rec || r.record[k] != rec[k]) ==>
              (r.mode.FullSave? || k in r.mode.fields)
    ensures var r := WriteBack(rec, playlistField, masterKey, now);
            forall k :: k in rec && k != BuiltAtAttr && !(IsSet(playlistField) && k == playlistField.value) ==>
              r.record[k] == rec[k]
  {
  }

  /** The playlist attribute ends up holding the master key, unless it is the
      timestamp attribute itself, which the timestamp then overwrites. */
  lemma WriteBackRecordsMaster(rec: Record, playlistField: Option<string>, masterKey: string, now: Value)
    requires IsSet(playlistField)
    ensures var r := WriteBack(rec, playlistField, masterKey, now);
            r.record[playlistField.value] == if playlistField.value == BuiltAtAttr then now else Str(masterKey)
    ensures var r := WriteBack(rec, playlistField, masterKey, now);
            BuiltAtAttr in r.mode.fields <==> BuiltAtAttr in rec || playlistField.value == BuiltAtAttr
  {
  }

  /** After the write-back, `master_url()` returns the URL of the master key
      (when the playlist attribute is not the timestamp attribute). */
  lemma MasterUrlAfterWriteBack(rec: Record, playlistField: Option<string>, masterKey: string, now: Value,
                                url: string -> Option<string>)
    requires IsSet(playlistField) && playlistField.value != BuiltAtAttr
    requires masterKey != ""
    ensures MasterUrl(playlistField, WriteBack(rec, playlistField, masterKey, now).record, url) == url(masterKey)
  {
  }

  /** What a successful build leaves behind. */
  datatype Built = Built(hls: HlsOutput, uploaded: seq<string>, masterKey: string, writeBack: WriteBackResult)

  /** `build_hls_for_field_sync` for a record already loaded: the probe and the
      encoder are oracles, `walk` is the listing of the output tree after
      transcoding, and `now` stands for `timezone.now()`. A failed probe or
      encoder run aborts before anything is uploaded or written back. */
  method BuildHlsForFieldSync(field: HlsVideoField, name: string, rec: Record,
                              probe: Option<ProbeInfo>, encoderOk: nat -> bool,
                              walk: seq<string>, now: Value)
    returns (r: Result<Built>)
    ensures probe.None? ==> r == Failure(ProbeFailed)
    ensures r.Success? <==> probe.Some? && forall i :: 0 <= i < |field.ladder| ==> encoderOk(i)
    ensures r.Success? ==>
              && r.value.hls.variants == Variants(field.ladder, HasAudio(probe.value))
              && r.value.masterKey == MasterKey(name, field.baseSubdir)
              && |r.value.uploaded| == |walk|
              && (forall i :: 0 <= i < |walk| ==>
                    r.value.uploaded[i] == TreeKey(OutputRoot(name, field.baseSubdir), walk[i]))
              && r.value.writeBack == WriteBack(rec, field.playlistField, r.value.masterKey, now)
  {
    var hls :- TranscodeHlsVariants(field.ladder, probe, encoderOk);
    var baseKey := OutputRoot(name, field.baseSubdir);
    var uploaded := SaveTreeToStorage(walk, baseKey);
    var masterKey := baseKey + MasterName;
    var wb := WriteBack(rec, field.playlistField, masterKey, now);
    return Success(Built(hls, uploaded, masterKey, wb));
  }

  /** When the tree listing contains the root `master.m3u8`, the key recorded on
      the record is one of the keys actually uploaded whenever the subdir label
      is well formed. */
  lemma MasterKeyUploaded(name: string, subdir: string, walk: seq<string>, uploaded: seq<string>)
    requires |uploaded| == |walk|
    requires forall i :: 0 <= i < |walk| ==> uploaded[i] == TreeKey(OutputRoot(name, subdir), walk[i])
    requires MasterName in walk
    ensures WellFormedSubdir(subdir) ==> MasterKey(name, subdir) in uploaded
  {
    var i :| 0 <= i < |walk| && walk[i] == MasterName;
    MasterKeyMatchesUpload(name, subdir);
  }

  lemma NoBackslashUnchanged(s: string)
    requires '\\' !in s
    ensures ReplaceBackslashes(s) == s
  {
  }

  /** The URI a master playlist lists for a variant, read relative to the
      master's own directory, is the key that variant's playlist is uploaded
      under (for a well-formed subdir label). */
  lemma VariantUriResolves(name: string, subdir: string, rung: Rung, hasAudio: bool)
    requires WellFormedSubdir(subdir)
    ensures var root := OutputRoot(name, subdir);
            var uri := UriLine(VariantOf(rung, hasAudio));
            && MasterKey(name, subdir) == root + MasterName
            && TreeKey(root, uri) == root + uri
  {
    var root := OutputRoot(name, subdir);
    var uri := UriLine(VariantOf(rung, hasAudio));
    var digits := IntToString(rung.height);
    assert uri == "v" + digits + "/" + PlaylistName;
    assert '\\' !in digits;
    NoBackslashUnchanged(uri);
    StripOutputRoot(name, subdir);
  }
}

=== FILE: text.dfy ===
/** The handful of Python string operations the keys and the playlist are
    built from: `str(int)`, `"\n".join`, `str.split("\n")`, `str.rstrip("/")`,
    `str.replace("\\", "/")` and `str.rfind`. */
module Text {

  predicate IsDigit(c: char) {
    '0' <= c <= '9'
  }

  function DigitChar(d: int): (c: char)
    requires 0 <= d < 10
    ensures IsDigit(c)
  {
    (48 + d) as char
  }

  function DigitValue(c: char): (d: int)
    requires IsDigit(c)
    ensures 0 <= d < 10
  {
    c as int - 48
  }

  predicate AllDigits(s: string) {
    forall i :: 0 <= i < |s| ==> IsDigit(s[i])
  }

  /** Decimal rendering of a natural number, most significant digit first,
      without leading zeros. */
  function NatToString(n: nat): (s: string)
    ensures 1 <= |s|
    ensures AllDigits(s)
    ensures |s| > 1 ==> s[0] != '0'
    decreases n
  {
    if n < 10 then [DigitChar(n)] else NatToString(n / 10) + [DigitChar(n % 10)]
  }

  /** Value of a string of decimal digits (the inverse of `NatToString`). */
  function ParseNat(s: string): nat
    requires AllDigits(s)
    decreases |s|
  {
    if |s| == 0 then 0 else ParseNat(s[..|s| - 1]) * 10 + DigitValue(s[|s| - 1])
  }

  lemma {:induction false} ParseNatToString(n: nat)
    ensures ParseNat(NatToString(n)) == n
    decreases n
  {
    if n >= 10 {
      var s := NatToString(n);
      assert s[..|s| - 1] == NatToString(n / 10);
      ParseNatToString(n / 10);
    }
  }

  /** Python's `str(i)` for an `int`: a minus sign, then the digits of `|i|`. */
  function IntToString(i: int): (s: string)
    ensures 1 <= |s|
    ensures forall k :: 0 <= k < |s| ==> IsDigit(s[k]) || (k == 0 && s[k] == '-')
    ensures i >= 0 <==> IsDigit(s[0])
  {
    if i < 0 then "-" + NatToString(-i) else NatToString(i)
  }

  /** Distinct integers print differently, so a rendered number identifies its value. */
  lemma IntToStringInjective(a: int, b: int)
    ensures IntToString(a) == IntToString(b) <==> a == b
  {
    if IntToString(a) == IntToString(b) {
      if a >= 0 {
        ParseNatToString(a);
        ParseNatToString(b);
      } else {
        assert NatToString(-a) == IntToString(a)[1..];
        assert NatToString(-b) == IntToString(b)[1..];
        ParseNatToString(-a);
        ParseNatToString(-b);
      }
    }
  }

  /** Index of the first occurrence of `c` in `s`, or -1 (Python `str.find`). */
  function Find(s: string, c: char): (i: int)
    ensures -1 <= i < |s|
    ensures i == -1 <==> c !in s
    ensures 0 <= i ==> s[i] == c && c !in s[..i]
    decreases |s|
  {
    if |s| == 0 then -1
    else if s[0] == c then 0
    else
      var j := Find(s[1..], c);
      assert 0 <= j ==> s[..j + 1] == [s[0]] + s[1..][..j];
      if j < 0 then -1 else j + 1
  }

  /** Index of the last occurrence of `c` in `s`, or -1 (Python `str.rfind`). */
  function RFind(s: string, c: char): (i: int)
    ensures -1 <= i < |s|
    ensures 0 <= i ==> s[i] == c
    ensures forall k :: i < k < |s| ==> s[k] != c
    decreases |s|
  {
    if |s| == 0 then -1
    else if s[|s| - 1] == c then |s| - 1
    else RFind(s[..|s| - 1], c)
  }

  /** Python's `s.rstrip("/")`: drops every trailing slash. */
  function RStripSlashes(s: string): (r: string)
    ensures r <= s
    ensures |r| == 0 || r[|r| - 1] != '/'
    ensures forall k :: |r| <= k < |s| ==> s[k] == '/'
    decreases |s|
  {
    if |s| > 0 && s[|s| - 1] == '/' then RStripSlashes(s[..|s| - 1]) else s
  }

  /** Python's `s.replace("\\", "/")`. */
  function ReplaceBackslashes(s: string): (r: string)
    ensures |r| == |s|
    ensures '\\' !in r
    ensures forall k :: 0 <= k < |s| && s[k] != '\\' ==> r[k] == s[k]
    ensures forall k :: 0 <= k < |s| && s[k] == '\\' ==> r[k] == '/'
  {
    seq(|s|, k requires 0 <= k < |s| => if s[k] == '\\' then '/' else s[k])
  }

  /** Python's `"\n".join(lines)`. */
  function JoinLines(lines: seq<string>): string
    decreases |lines|
  {
    if |lines| == 0 then ""
    else if |lines| == 1 then lines[0]
    else lines[0] + "\n" + JoinLines(lines[1..])
  }

  /** Python's `text.split("\n")`: always at least one piece, none holding a newline. */
  function SplitLines(text: string): (pieces: seq<string>)
    ensures 1 <= |pieces|
    ensures forall k :: 0 <= k < |pieces| ==> '\n' !in pieces[k]
    decreases |text|
  {
    var i := Find(text, '\n');
    if i < 0 then [text] else [text[..i]] + SplitLines(text[i + 1..])
  }

  predicate NoNewlines(lines: seq<string>) {
    forall k :: 0 <= k < |lines| ==> '\n' !in lines[k]
  }

  lemma NoNewlinesAppend(a: seq<string>, b: seq<string>)
    requires NoNewlines(a) && NoNewlines(b)
    ensures NoNewlines(a + b)
  {
    forall k | 0 <= k < |a + b| ensures '\n' !in (a + b)[k] {
      if k >= |a| {
        assert (a + b)[k] == b[k - |a|];
      }
    }
  }

  /** Splitting a joined text at its newlines gives the lines back, as long as
      there is at least one line and no line holds a newline itself. */
  lemma {:induction false} SplitJoinLines(lines: seq<string>)
    requires 1 <= |lines|
    requires NoNewlines(lines)
    ensures SplitLines(JoinLines(lines)) == lines
    decreases |lines|
  {
    if |lines| > 1 {
      var tail := lines[1..];
      assert NoNewlines(tail) by {
        forall k | 0 <= k < |tail| ensures '\n' !in tail[k] {
          assert tail[k] == lines[k + 1];
        }
      }
      SplitJoinLines(tail);
      SplitLinesCons(lines[0], JoinLines(tail));
      assert lines == [lines[0]] + tail;
    }
  }

  /** A newline-free first line is split off at the first newline. */
  lemma SplitLinesCons(head: string, rest: string)
    requires '\n' !in head
    ensures SplitLines(head + "\n" + rest) == [head] + SplitLines(rest)
  {
    var text := head + "\n" + rest;
    assert text[..|head|] == head;
    FindAt(text, '\n', |head|);
    assert text[|head| + 1..] == rest;
  }

  lemma FindAt(s: string, c: char, i: int)
    requires 0 <= i < |s| && s[i] == c && c !in s[..i]
    ensures Find(s, c) == i
  {
  }
}
